=== FILE: README.md ===
# Task tracker core in Dafny

A model of the decision logic of a small task tracker: an Express/Sequelize
back end that stores tasks and users, and a React front end that lists,
filters, edits and toggles them. The model covers:

- **Back end.** The task controller: the permission gates of update, delete
  and toggle, the partial-update merge, the creation defaults, the listing
  filter and the statistics. It also covers the `Task` model's defaults,
  title validators and the `beforeUpdate` completion hook, and the `User`
  model's validators, defaults, password-hashing hooks and `toSafeObject`.
  The request validators and their `validate` step are included, as is the
  error handler's mapping from error name to status and message.
- **Front end.** The task card's permission flags and footers, the Tasks
  page's handlers, the filter bar, the route guards, the profile page's
  password form and profile merge, and the display helpers.

Everything is a pure function over immutable records:

- The task store is a `map` from id to task.
- The user directory is a set of ids.
- The signed-in user is an `Actor(id, role)`.
- "Now", the id a new task receives, the password hash, the e-mail and
  ISO 8601 grammars, date parsing and locale rendering are all parameters.
- The result of an API call is a parameter of the page handler that makes
  it, so a handler returns both the request it sends and the state it
  leaves.

Modules, one per source component:

| module | file | models |
|---|---|---|
| `Js` | js.dfy | `undefined`/`null`, truthiness, validator string form, `a \|\| b` |
| `Strings` | strings.dfy | `\s`, `trim`, lower-casing, substring search, `join` |
| `Like` | like.dfy | PostgreSQL `LIKE`/`ILIKE` with the `\` escape, under a case folding |
| `TaskModel` | task_model.dfy | the `Task` model |
| `UserModel` | user_model.dfy | the `User` model |
| `ErrorHandler` | error_handler.dfy | the error middleware |
| `TaskValidator` | task_validator.dfy | the task request validators |
| `TaskController` | task_controller.dfy | get, create, update, delete and toggle |
| `TaskQueries` | task_queries.dfy | the listing filter and the statistics |
| `Client` | client.dfy | API results and alerts as the pages see them |
| `Helpers` | helpers.dfy | the display helpers |
| `TaskCard` | task_card.dfy | the task card |
| `TasksPage` | tasks_page.dfy | the Tasks page handlers |
| `TaskFilters` | task_filters.dfy | the filter bar |
| `AppRoutes` | app_routes.dfy | the route table and guards |
| `Profile` | profile.dfy | the profile page |

Two behaviours of the code are easy to misread, and the model keeps them:

- The `beforeUpdate` hook of the `Task` model (src/models/Task.js:61-71)
  couples only the completion flag and `completedAt`, not `status`. An
  update that sets just `status` leaves a completed task completed with
  another status (`TaskController.StatusCanDivergeFromFlag`). Reopening a
  task keeps status `completed` (`TaskController.ToggleTwice`).
- `getTaskStats` (backend/src/controllers/taskController.js:342-348) scopes
  a non-admin's counts to `req.query.userId` when that is given, and to the
  caller only otherwise (`TaskQueries.ScopeUser`).

## Model

| member | source | states |
|---|---|---|
| `TaskModel.EnumNamesRoundTrip` | src/models/Task.js:23-30 | the status and priority enumerations are exactly their three spellings each, and parsing a spelling gives back the value |
| `TaskModel.Create` | src/models/Task.js:23-42 | a new task takes the given fields, `pending` and `medium` when status or priority are missing, and starts incomplete with no completion time |
| `TaskModel.TitleErrors` | src/models/Task.js:11-18 | a title passes exactly when it is not all white space and has 3 to 200 characters; an empty title reports both messages |
| `TaskModel.BeforeUpdate` | src/models/Task.js:62-70 | the hook changes only `status` and `completedAt`; with the flag unchanged it changes nothing; false to true forces `completed` and stamps now; true to false clears the time and keeps the status |
| `TaskModel.HookKeepsCoherence` | src/models/Task.js:61-71 | a task whose flag and completion time agree still has them agree after any update through the hook |
| `TaskModel.CreateIsCoherent` | src/models/Task.js:35-42 | a new task is incomplete and has no completion time, so the two agree |
| `UserModel.NameErrors` | src/models/User.js:11-18 | a name passes exactly when it is not blank and has 2 to 100 characters |
| `UserModel.EmailErrors` | src/models/User.js:19-27 | an e-mail passes exactly when it is not blank and is a valid address |
| `UserModel.PasswordErrors` | src/models/User.js:28-35 | a password passes exactly when it is not blank and has 6 to 100 characters; out of range always reports the length message |
| `UserModel.Create` | src/models/User.js:36-52 | the role defaults to `user`, the account to active, both timestamps to the time of creation, and a non-empty password is stored hashed |
| `UserModel.BeforeUpdate` | src/models/User.js:53-58 | the password is hashed again exactly when the update changed it; nothing else is touched |
| `UserModel.ProfileEditKeepsHash` | src/models/User.js:53-58 | editing name and e-mail keeps the stored hash as it is |
| `UserModel.ToSafeObject` | src/models/User.js:68-71 | the safe object has every key but `password`, each with its value |
| `UserModel.ToJson` | src/models/User.js:5-45 | the JSON form has one key per column, `createdAt` and `updatedAt` included, and carries the stored password |
| `UserModel.SafeUserFields` | src/models/User.js:68-71 | a user's safe object exposes exactly id, name, email, role, isActive, createdAt and updatedAt |
| `ErrorHandler.Handle` | src/middleware/errorHandler.js:1-50 | the reply never reports success and never has status 0 or an empty message; known names get their status; an unknown error keeps its own status (else 500) and message (else "Server Error") |
| `ErrorHandler.KnownErrorTable` | src/middleware/errorHandler.js:16-44 | unique, database and foreign-key errors give 400 with their fixed messages; token errors give 401 "Invalid token" / "Token expired" |
| `ErrorHandler.ValidationErrorReply` | src/middleware/errorHandler.js:9-13 | a validation error gives 400 with its messages joined by ", "; the message falls back to "Server Error" exactly when the join is empty |
| `Strings.JoinEmptyIff` | src/middleware/errorHandler.js:10 | the joined messages are empty exactly when there are none or the only one is empty |
| `Strings.Trim` | src/validators/taskValidator.js:22 | trimming removes a white-space prefix and suffix and nothing else; the result is empty exactly for all-blank input |
| `Strings.TrimCharacterised` | src/validators/taskValidator.js:22 | any non-empty slice with only white space around it and none at its own ends is the trimmed text, so the contract of `Trim` determines it |
| `Strings.TrimIdempotent` | src/validators/taskValidator.js:22 | trimming a trimmed text changes nothing |
| `TaskValidator.TitleRule` | src/validators/taskValidator.js:21-24 | a title passes exactly when its trimmed text has 3 to 200 characters; every error names the `title` field |
| `TaskValidator.TitleLengthRule` | src/validators/taskValidator.js:23-24 | on a trimmed length `n`, no error exactly when 3 <= n <= 200; every error names the `title` field |
| `TaskValidator.DescriptionRule` | src/validators/taskValidator.js:26-29 | a description passes when absent or at most 2000 characters after trimming |
| `TaskValidator.Sanitize` | src/validators/taskValidator.js:21-29 | present titles and descriptions are replaced by their trimmed text; every other field passes unchanged |
| `TaskValidator.Validate` | src/validators/taskValidator.js:4-17 | any error gives 400 "Validation failed" listing every error; no error lets the request through |
| `TaskValidator.EnumListsAgree` | src/validators/taskValidator.js:31-37 | the validator's status and priority lists are exactly the model's enumerations |
| `TaskValidator.CreateAcceptedIff` | src/validators/taskValidator.js:20-48 | the create validator passes a body exactly when the title is 3 to 200 characters after trimming and every present optional field is valid |
| `TaskValidator.UpdateAcceptedIff` | src/validators/taskValidator.js:51-87 | the update validator passes exactly when the id is a UUID and every present field is valid |
| `TaskValidator.CreateIgnoresIsCompleted` | src/validators/taskValidator.js:20-48 | the create validator never looks at `isCompleted` |
| `TaskValidator.IsCompletedValues` | src/validators/taskValidator.js:82-84 | on update, `isCompleted` passes exactly for a boolean, the number 1 or 0, or one of "true", "false", "1", "0"; `null` fails |
| `Js.DigitsRoundTrip` | src/validators/taskValidator.js:82-84 | the decimal form a validator sees of a non-negative number below 10^21 reads back as that number |
| `Js.DecimalInjective` | src/validators/taskValidator.js:82-84 | two numbers with the same decimal form are equal, so a numeric field's string form names one number |
| `TaskValidator.EmptyUpdateAccepted` | src/validators/taskValidator.js:51-87 | an empty update body passes for any well-formed id |
| `TaskValidator.AcceptedTitleMeetsModel` | src/validators/taskValidator.js:21-24 | a title that passes the create validator's title chain, once trimmed, also passes the model's title validators |
| `TaskController.GatesMatchTable` | backend/src/controllers/taskController.js:188-192 | the update, toggle and delete gates are the permission table: update and toggle for creator, assignee or admin; delete for creator or admin |
| `TaskController.AssigneeOnly` | backend/src/controllers/taskController.js:264-269 | an assignee who is neither creator nor admin may update and toggle but not delete |
| `TaskController.GetTask` | backend/src/controllers/taskController.js:86-117 | an unknown id gives 404 "Task not found"; a known one returns that task |
| `TaskController.CreateTask` | backend/src/controllers/taskController.js:122-171 | an unknown assignee gives 404 with no write; a valid title stores a task created by the actor, with the given status and priority or else `pending` and `medium`; every refusal leaves the store as it was |
| `TaskController.CreatorIsActor` | backend/src/controllers/taskController.js:137-145 | a `createdBy` in the body is ignored: the creator is the acting user |
| `TaskController.ApplyChanges` | backend/src/controllers/taskController.js:212-221 | each field present in the body is written, including explicit nulls, and every absent field keeps its value |
| `TaskController.ChangedTitleErrors` | backend/src/controllers/taskController.js:221 | an update whose title is absent or equal to the stored one runs no title validator; a changed title gets the model's title validators |
| `TaskController.UpdateTask` | backend/src/controllers/taskController.js:176-247 | 404 first, then 403 unless creator, assignee or admin, then 404 for an unknown assignee, then validation; success stores and returns the body merged into the task, with the completion time unchanged; any refusal writes nothing |
| `TaskController.UpdateTaskWithHook` | backend/src/controllers/taskController.js:176-247 | the same gates in the same order; success stores and returns the merged task with the hook's status and completion time |
| `TaskController.UpdatesDifferOnlyInRow` | backend/src/controllers/taskController.js:176-247 | the two writes refuse the same requests with the same replies, and store the same row unless the flag flips |
| `TaskController.UpdateCompletionLosesTime` | backend/src/controllers/taskController.js:221 | as written, completing a task by update stores it completed with no completion time and its old status, which breaks the store invariant and differs from a toggle |
| `TaskController.UpdateFrame` | backend/src/controllers/taskController.js:212-221 | a successful hooked update changes only the fields in the body, plus status and time when the flag flips; id, creator and other tasks stay the same |
| `TaskController.EmptyUpdateIsIdentity` | backend/src/controllers/taskController.js:212-221 | an empty body leaves the task exactly as it was |
| `TaskController.NullAssigneeIsWritten` | backend/src/controllers/taskController.js:202-218 | a null assignee skips the lookup and is written |
| `TaskController.CompletionOverridesStatus` | src/models/Task.js:63-66 | completing a task by a hooked update sets `completed` and now, even when the same body asks for another status |
| `TaskController.StatusCanDivergeFromFlag` | backend/src/controllers/taskController.js:215 | setting only `status` leaves a completed task completed with status `pending` |
| `TaskController.DeleteTask` | backend/src/controllers/taskController.js:252-280 | 404 first, then 403 unless creator or admin, then removal of exactly that task |
| `TaskController.Flip` | backend/src/controllers/taskController.js:308-309 | toggling negates the flag; completing stamps now and sets `completed`; reopening clears the time and keeps the status |
| `TaskController.ToggleTaskCompletion` | backend/src/controllers/taskController.js:285-335 | 404 first, then the same gate as update, then the flipped task is stored and returned with "Task marked as completed" or "... incomplete" |
| `TaskController.ToggleIsUpdate` | backend/src/controllers/taskController.js:308-309 | a toggle leaves the same store and returns the same task as a hooked update whose only field is the negated flag |
| `TaskController.ToggleTwice` | backend/src/controllers/taskController.js:308-309 | completing then reopening ends incomplete, with no completion time but status `completed` |
| `TaskController.CreateKeepsInvariant` | backend/src/controllers/taskController.js:137-145 | creation keeps every task under its own id with flag and completion time in agreement |
| `TaskController.UpdateKeepsInvariant` | backend/src/controllers/taskController.js:212-221 | a hooked update keeps that invariant |
| `TaskController.DeleteKeepsInvariant` | backend/src/controllers/taskController.js:271 | a delete keeps that invariant |
| `TaskController.ToggleKeepsInvariant` | backend/src/controllers/taskController.js:308-309 | a toggle keeps that invariant |
| `TaskQueries.BuildWhere` | backend/src/controllers/taskController.js:33-36 | a present `isCompleted` parameter filters on the text being exactly "true" |
| `TaskQueries.GetAllTasks` | backend/src/controllers/taskController.js:21-57 | a filter value its column cannot hold (a status or priority outside the enumeration, an assignee or creator that is not a UUID) gives 400 "Database error occurred"; otherwise the listing is a sub-map of the store with the stored tasks unchanged |
| `TaskQueries.GetAllTasksEscaped` | backend/src/controllers/taskController.js:21-57 | the listing with the search text escaped refuses the same queries and answers every query the code as written answers, with a sub-map of the store |
| `TaskQueries.ListingIsConjunction` | backend/src/controllers/taskController.js:21-54 | the escaped listing answers exactly when every given filter is a value of its column, and then lists a task exactly when it meets every given filter, with search a substring of title or description after case folding |
| `TaskQueries.SearchIsSubstring` | backend/src/controllers/taskController.js:49-53 | under a folding that leaves `%`, `_` and `\` alone, the escaped `%text%` search holds exactly when the folded title or description contains the folded text |
| `TaskQueries.NoFiltersListsAll` | backend/src/controllers/taskController.js:21-54 | with no parameters every task is listed, escaped or not |
| `TaskQueries.IsCompletedTextFilter` | backend/src/controllers/taskController.js:34-36 | any `isCompleted` text other than "true" lists exactly the incomplete tasks |
| `TaskQueries.PlainSearchUnaffected` | backend/src/controllers/taskController.js:49-53 | a search text with no `%`, `_` or `\` lists the same tasks escaped or not |
| `TaskQueries.SearchWildcardLeak` | backend/src/controllers/taskController.js:49-53 | as written, searching "a_c" lists a task titled "abc", which does not contain "a_c" |
| `TaskQueries.GetTaskStats` | backend/src/controllers/taskController.js:340-374 | each count is the number of tasks in the scope (every task for an admin; for anyone else those the scope user created or is assigned) meeting that count's condition; completed, pending and in-progress are each at most the total, pending plus in-progress too; a non-admin scope user that is not a UUID gives 400 "Database error occurred" |
| `TaskQueries.StatsEmpty` | backend/src/controllers/taskController.js:350-359 | with no tasks every count is zero |
| `TaskQueries.StatsAdd` | backend/src/controllers/taskController.js:344-359 | adding a task raises by one exactly the counts whose scope and condition it meets; a task outside the scope changes no count |
| `TaskQueries.StatsRemove` | backend/src/controllers/taskController.js:344-359 | removing a task lowers by one exactly the counts it was counted in; a task outside the scope changes no count |
| `TaskQueries.StatsExample` | backend/src/controllers/taskController.js:342-360 | a member with three created tasks and one assigned one sees 4 / 1 / 2 / 1, not counting other users' tasks |
| `Like.ILikeSubstring` | backend/src/controllers/taskController.js:51-52 | for any per-character case folding that leaves `%`, `_` and `\` alone, `ILIKE '%' + escaped text + '%'` is substring search on the folded strings |
| `Like.EscapeLike` | backend/src/controllers/taskController.js:49-53 | escaping at most doubles the text and leaves a text without pattern characters as it is |
| `Helpers.TruncateText` | frontend/src/utils/helpers.ts:49-52 | a text that fits is returned unchanged; a longer one becomes its first `maxLength` characters and "...", `maxLength + 3` long |
| `Helpers.TruncateIdempotent` | frontend/src/utils/helpers.ts:49-52 | truncating twice with the same bound is truncating once |
| `Helpers.TruncateKeepsPrefix` | frontend/src/utils/helpers.ts:49-52 | the result is the text or a prefix of it followed by "..." |
| `Helpers.PriorityColor` | frontend/src/utils/helpers.ts:23-34 | high, medium and low get red, orange and green; a name is grey exactly when it is not a priority |
| `Helpers.StatusColor` | frontend/src/utils/helpers.ts:36-47 | completed, in-progress and pending get green, blue and orange; a name is grey exactly when it is not a status |
| `Helpers.ColorsDistinguishEnums` | frontend/src/utils/helpers.ts:23-47 | distinct priorities get distinct colours, distinct statuses too, and none of them is grey |
| `Helpers.FormatDate` | frontend/src/utils/helpers.ts:1-21 | a missing or empty date shows "N/A" in both styles; any other text is handed to the locale rendering of the chosen style |
| `Helpers.IsOverdue` | frontend/src/utils/helpers.ts:54-57 | overdue exactly when a due date is given, readable, and before now |
| `Helpers.OverdueMonotone` | frontend/src/utils/helpers.ts:54-57 | a task overdue now is still overdue later |
| `TaskCard.CardFlags` | frontend/src/components/Tasks/TaskCard.tsx:20-27 | the card's edit, delete and toggle flags are the server's update, delete and toggle gates; with nobody signed in all are false |
| `TaskCard.FlagsFollowTable` | frontend/src/components/Tasks/TaskCard.tsx:25-27 | the flags are the permission table; edit equals toggle, and delete implies edit |
| `TaskCard.Overdue` | frontend/src/components/Tasks/TaskCard.tsx:17 | the overdue badge needs an incomplete task and is then exactly the due-date test |
| `TaskCard.ToggleClick` | frontend/src/components/Tasks/TaskCard.tsx:34-36 | a click toggles this task exactly when the user may toggle |
| `TaskCard.FooterIsExclusive` | frontend/src/components/Tasks/TaskCard.tsx:112-139 | exactly one of the action bar and the view-only notice shows; the notice shows exactly for users who are neither creator, assignee nor admin |
| `TaskCard.DescriptionLine` | frontend/src/components/Tasks/TaskCard.tsx:56-58 | a line shows exactly for a non-empty description: the whole text when it has at most 100 characters, else its first 100 and "..." |
| `TasksPage.GatesAreCardFlags` | frontend/src/pages/Tasks.tsx:63-69 | the page's edit, delete and toggle gates are the card's flags |
| `TasksPage.Find` | frontend/src/pages/Tasks.tsx:102-103 | the lookup returns the first loaded task with the id, and nothing exactly when none has it |
| `TasksPage.HandleEditTask` | frontend/src/pages/Tasks.tsx:63-76 | the form opens on the task only for creator, assignee or admin; anyone else gets an error and the modal is untouched |
| `TasksPage.HandleDeleteTask` | frontend/src/pages/Tasks.tsx:100-123 | a request is sent exactly when the task is loaded, the user is creator or admin, and the deletion is confirmed; an unloaded id does nothing; a refusal shows its error |
| `TasksPage.HandleToggleComplete` | frontend/src/pages/Tasks.tsx:125-147 | a request is sent exactly when the task is loaded and the user is creator, assignee or admin |
| `TasksPage.HandleSubmitTask` | frontend/src/pages/Tasks.tsx:78-98 | update when a task is selected, create otherwise; success and 403 close the modal with their alerts; any other failure is rethrown |
| `TasksPage.DeleteGateAgrees` | frontend/src/pages/Tasks.tsx:105-111 | with an up-to-date copy, the page sends a delete exactly when the server would allow it |
| `TasksPage.ToggleGateAgrees` | frontend/src/pages/Tasks.tsx:130-137 | with an up-to-date copy, the page sends a toggle exactly when the server would allow it |
| `TasksPage.EditGateAgrees` | frontend/src/pages/Tasks.tsx:63-76 | the page opens the edit form exactly when the server's update gate would not answer 403 |
| `TaskFilters.HandleChange` | frontend/src/components/Tasks/TaskFilters.tsx:11-13 | only the chosen key changes: to the value, or to absent for an empty value |
| `TaskFilters.HandleChangeIdempotent` | frontend/src/components/Tasks/TaskFilters.tsx:11-13 | choosing the same value twice is choosing it once |
| `TaskFilters.HandleChangeCommutes` | frontend/src/components/Tasks/TaskFilters.tsx:11-13 | changes to different keys commute |
| `TaskFilters.HandleChangeKeepsNoEmpty` | frontend/src/components/Tasks/TaskFilters.tsx:12 | the controls never store an empty text |
| `TaskFilters.Clear` | frontend/src/components/Tasks/TaskFilters.tsx:82 | clearing leaves every key absent |
| `TaskFilters.ClearVisibleIffFiltered` | frontend/src/components/Tasks/TaskFilters.tsx:80-82 | for records built by the controls, the Clear button shows exactly when some filter is set, and never after clearing |
| `TaskFilters.ToQuery` | frontend/src/api/taskApi.ts:6-11 | each filter key holding a non-empty text becomes that query parameter, an empty or absent one is not sent, and there is no creator filter |
| `TaskFilters.ToQueryKeyForKey` | frontend/src/api/taskApi.ts:6-11 | for records the controls build, the query carries every filter key for key |
| `TaskFilters.ClearVisibleIffSent` | frontend/src/api/taskApi.ts:8-10 | for every record, the Clear button shows exactly when the request carries some filter |
| `TaskFilters.ClearListsAll` | frontend/src/components/Tasks/TaskFilters.tsx:82 | after clearing, the listing is every task |
| `AppRoutes.Decide` | frontend/src/App.tsx:15-47 | while loading every guard shows the spinner; otherwise private needs a user, public needs none, and admin sends nobody to login and non-admins to the dashboard |
| `AppRoutes.RouteFor` | frontend/src/App.tsx:68-132 | a key that is one of the six screen paths reaches that screen behind its guard; every other key, `/` included, redirects to the dashboard |
| `AppRoutes.RouteTable` | frontend/src/App.tsx:68-132 | visiting each screen's path leads to that screen behind its guard, and visiting `/` redirects to the dashboard |
| `AppRoutes.TrailingSlashIgnored` | frontend/src/App.tsx:68-132 | a trailing slash does not change the route a path takes |
| `AppRoutes.CaseIgnored` | frontend/src/App.tsx:68-132 | lower-casing a path does not change the route it takes |
| `AppRoutes.Visit` | frontend/src/App.tsx:68-132 | every redirect leads to the dashboard or the login page |
| `AppRoutes.NoRedirectLoop` | frontend/src/App.tsx:15-132 | once loaded, every path settles on a screen after at most two redirects |
| `AppRoutes.ScreensRespectAuth` | frontend/src/App.tsx:15-47 | through any number of redirects, signed-in screens reach only users, the users screen only admins, and login and register only visitors |
| `AppRoutes.LoadingShowsSpinner` | frontend/src/App.tsx:18-20 | while loading, every guarded path shows the spinner whoever the user is |
| `Profile.CheckPasswordForm` | frontend/src/pages/Profile.tsx:52-71 | a request is sent exactly when new and confirmation match and have at least 6 characters; a mismatch is reported first; the request carries the current and new passwords |
| `Profile.AfterPasswordChange` | frontend/src/pages/Profile.tsx:67-82 | success empties all three fields; failure keeps them and shows the server's message or "Failed to change password" |
| `Profile.ResetFormIsRefused` | frontend/src/pages/Profile.tsx:72-77 | the emptied form is refused as too short before any request |
| `Profile.FormCheckWithinModel` | frontend/src/pages/Profile.tsx:60-63 | the form enforces the model's lower length bound; six spaces pass the form yet fail the user model |
| `Profile.MergeStoredUser` | frontend/src/pages/Profile.tsx:40-44 | the stored user keeps every key, with name and email taken from the form; nothing is written when no user is stored |
| `Profile.MergeIdempotent` | frontend/src/pages/Profile.tsx:40-44 | saving the same profile twice is saving it once |
| `Profile.ProfileUpdateAlert` | frontend/src/pages/Profile.tsx:36-47 | success shows "Profile updated successfully"; failure shows the server's message or "Failed to update profile" |
| `Profile.SaveProfile` | frontend/src/pages/Profile.tsx:36-44 | the stored user changes only after a successful update |

## Findings

| source | as written | input that shows it | evidently intended | confidence | as-written member | corrected member |
|---|---|---|---|---|---|---|
| backend/src/controllers/taskController.js:49-53 | the search text is pasted between `%` signs without escaping, so `%`, `_` and `\` in it act as pattern characters | searching "a_c" lists a task titled "abc" | the text is matched literally, as a case-insensitive substring | medium, not executed | `TaskQueries.SearchWildcardLeak` | `TaskQueries.SearchIsSubstring` |
| backend/src/controllers/taskController.js:221 | `task.update(fieldsToUpdate)` saves only the fields in the body, so the `status` and `completedAt` the `beforeUpdate` hook assigns are never written | an update with body `{"isCompleted": true}` on an open task stores it completed with `completedAt` null and its old status | the hook's changes are saved with the body, as `task.save()` saves them on the toggle path | medium, not executed; rests on Sequelize's instance `update` passing the body's keys as the fields to save | `TaskController.UpdateCompletionLosesTime` | `TaskController.UpdateKeepsInvariant` |

The search as written is `TaskQueries.GetAllTasks`; the corrected listing,
`TaskQueries.GetAllTasksEscaped`, escapes the text and is the one the filter
bar's lemmas use. `TaskQueries.PlainSearchUnaffected` shows the two agree
whenever the text has no pattern characters.

The update as written is `TaskController.UpdateTask`; the corrected write,
`TaskController.UpdateTaskWithHook`, saves the hook's fields, keeps the store
invariant and is what a toggle amounts to (`TaskController.ToggleIsUpdate`).
The Tasks page's edit gate is stated against it.
`TaskController.UpdatesDifferOnlyInRow` shows the two refuse the same
requests and differ only when the completion flag flips.

## Left out

- Database access, associations and ordering are not modelled. Sequelize
  `findAll`, `findByPk` and `count`, the `creator`/`assignee` includes, and
  the `sortBy`/`order` parameters are left to the database. The store is a
  map and the listing is a set of tasks.
- Coercion of request JSON into column values is not modelled. The
  controller takes typed change sets (`TaskController.Changes`,
  `TaskController.NewTask`). Sequelize's casting of strings to enums,
  booleans and dates sits outside the model. This includes whether the text
  "0" for `isCompleted` is stored as false.
- TaskQueries.GetAllTasks: the grammar PostgreSQL accepts for a `uuid` is
  the parameter `parseUuid`, so which spellings of an id (upper case,
  braces, no hyphens) compare equal is left to it. Repeated query
  parameters, which arrive as arrays, are not modelled.
- Like.ILikeSubstring: the collation's case folding is a per-character
  mapping (`fold`). A collation that folds whole strings, such as an ICU
  one where one character can fold to several, is not modelled.
- Strings.Lower: only ASCII capitals are lowered. It serves the route
  matcher alone, whose route paths are ASCII.
- AppRoutes.RouteFor: React Router's percent-decoding of the path before
  matching, and the router's `basename`, are not modelled.
- TaskQueries.GetTaskStats: the four counts are separate queries in the
  source. The model computes them over one snapshot of the store.
- String lengths are counted in Unicode scalar values. JavaScript counts
  UTF-16 code units. validator.js counts a surrogate pair as one and ignores
  the variation selectors U+FE0E/U+FE0F. The results differ only for text
  outside the Basic Multilingual Plane or with those selectors.
- UserModel.EmailErrors: the e-mail grammar of `isEmail` is a parameter.
- TaskValidator.DueDateRule: the ISO 8601 grammar of `isISO8601` is a
  parameter.
- bcrypt is not modelled. Hashing is an opaque parameter, and
  `matchPassword` (password comparison) is left out.
- Ids and timestamps are not generated by the model. The new task's UUID is
  a parameter (`newId`). A task's `createdAt`/`updatedAt` are not modelled.
  A user's are set from the parameter `now` at creation; their refresh of
  `updatedAt` on every save is not modelled.
- The error handler's `console.error` logging and its development-only
  `stack` field are not modelled.
- Front-end I/O is left out. This covers the axios calls, re-fetching after
  a change, `fetchUsers`, the five-second alert timer, the loading flags,
  `localStorage` access and `JSON.parse`. The parsed stored user and each
  call's result are parameters.
- The deletion confirmation dialog (`window.confirm`) is the parameter
  `confirmed`.
- Date parsing and locale rendering are parameters. The `Date` comparison of
  an unparsable text is modelled as false.
- The card's labels, colours and markup are left out, as are the Dashboard
  and its rounded percentage (floating point), the Users page, Navbar and
  TaskList (presentation only).
- TaskValidator.IsCompletedValues: a JSON number in a request body is an
  integer in the model. Fractions, and arrays and objects (which the
  validators see through their `toString`, so `[1]` reads as "1"), are not
  modelled.
- Js.Decimal: integers of magnitude 10^21 or more, which `String` writes in
  exponent form ("1e+21"), are not modelled; the model writes every digit.
  Such numbers also lie beyond 2^53, where a JSON number no longer holds
  every integer exactly.
- TaskController.UpdateTask: ids in a body (`assignedTo`) are taken to be
  UUIDs, as the route's validators ensure with `isUUID`. Without them, a
  non-UUID would make PostgreSQL raise an error, answered with 400 "Database
  error occurred", not 404 or 200 as in the model.
- TaskController.CreateTask: likewise for `assignedTo` on creation; an empty
  text skips the assignee lookup in the source and would then fail in the
  database, which the model does not show.
- TaskCard.CardFlags: with nobody signed in the source compares ids with
  `undefined`. The model assumes the server always sends `assignedTo`
  (`null` when unassigned), so no flag holds.

=== FILE: app_routes.dfy ===
/** The client's route table and its three guards: what each path shows for
    a given authentication state, and where the redirects lead. */
module AppRoutes {
  import opened Js
  import opened UserModel
  import opened Strings

  /** `useAuth()`: the signed-in user, if any, and whether the session is
      still being restored. */
  datatype Auth = Auth(user: Option<Actor>, loading: bool)

  datatype Guard = PrivateGuard | PublicGuard | AdminGuard

  datatype Screen = LoginScreen | RegisterScreen | DashboardScreen | TasksScreen | ProfileScreen | UsersScreen

  /** What a guard renders: the full-screen spinner, its child, or a
      redirect. */
  datatype View = Spinner | Render | Redirect(to: string)

  const Login := "/login"
  const Dashboard := "/dashboard"

  /** `PrivateRoute`, `PublicRoute` and `AdminRoute`. */
  function Decide(g: Guard, a: Auth): (v: View)
    ensures a.loading ==> v == Spinner
    ensures !a.loading && g == PrivateGuard ==> v == (if a.user.Some? then Render else Redirect(Login))
    ensures !a.loading && g == PublicGuard ==> v == (if a.user.None? then Render else Redirect(Dashboard))
    ensures !a.loading && g == AdminGuard ==>
      v == (if a.user.None? then Redirect(Login)
            else if a.user.value.role == Admin then Render else Redirect(Dashboard))
  {
    if a.loading then Spinner
    else match g
      case PrivateGuard => if a.user.Some? then Render else Redirect(Login)
      case PublicGuard => if a.user.None? then Render else Redirect(Dashboard)
      case AdminGuard =>
        if a.user.None? then Redirect(Login)
        else if a.user.value.role == Admin then Render else Redirect(Dashboard)
  }

  /** One entry of the route table: a guarded screen or a plain redirect. */
  datatype Route = Guarded(guard: Guard, screen: Screen) | Goto(to: string)

  /** Walking back from `j`: the index just past the last character before
      `j` that is not a slash, or 0 when there is none. */
  function SlashesFrom(path: string, j: nat): (e: nat)
    requires j <= |path|
    ensures e <= j
    ensures e == 0 || path[e - 1] != '/'
    ensures forall k :: e <= k < j ==> path[k] == '/'
    decreases j
  {
    if j > 0 && path[j - 1] == '/' then SlashesFrom(path, j - 1) else j
  }

  /** `path` without its trailing slashes. */
  function StripSlashes(path: string): (r: string)
    ensures |r| <= |path| && path[..|r|] == r
    ensures r == [] || r[|r| - 1] != '/'
  {
    path[..SlashesFrom(path, |path|)]
  }

  /** What React Router's matcher compares against a route's path: it
      matches without regard to letter case (each route path here is lower
      case ASCII) and admits any number of trailing slashes. */
  function Key(path: string): string {
    Lower(StripSlashes(path))
  }

  /** A path with no upper-case ASCII letter and no trailing slash is its own
      key. */
  predicate Canonical(path: string) {
    && (path == [] || path[|path| - 1] != '/')
    && forall k :: 0 <= k < |path| ==> !('A' <= path[k] <= 'Z')
  }

  /** The path each screen is mounted at. */
  function PathOf(s: Screen): string {
    match s
    case LoginScreen => "/login"
    case RegisterScreen => "/register"
    case DashboardScreen => "/dashboard"
    case TasksScreen => "/tasks"
    case ProfileScreen => "/profile"
    case UsersScreen => "/users"
  }

  /** The guard each screen sits behind. */
  function GuardOf(s: Screen): Guard {
    match s
    case LoginScreen => PublicGuard
    case RegisterScreen => PublicGuard
    case UsersScreen => AdminGuard
    case _ => PrivateGuard
  }

  /** The route table, looked up by key: a key that is some screen's path
      reaches that screen behind its guard, and `/` and every other key
      redirect to the dashboard. */
  function RouteFor(key: string): (r: Route)
    ensures r.Guarded? ==> key == PathOf(r.screen) && r.guard == GuardOf(r.screen)
    ensures r.Goto? ==> r.to == Dashboard && forall s :: PathOf(s) != key
  {
    match key
    case "/login" => Guarded(PublicGuard, LoginScreen)
    case "/register" => Guarded(PublicGuard, RegisterScreen)
    case "/dashboard" => Guarded(PrivateGuard, DashboardScreen)
    case "/tasks" => Guarded(PrivateGuard, TasksScreen)
    case "/profile" => Guarded(PrivateGuard, ProfileScreen)
    case "/users" => Guarded(AdminGuard, UsersScreen)
    case _ => Goto(Dashboard)
  }

  /** The route a visited path takes. */
  function RouteOf(path: string): Route {
    RouteFor(Key(path))
  }

  lemma {:induction false} CanonicalIsOwnKey(path: string)
    requires Canonical(path)
    ensures Key(path) == path
  {
    assert StripSlashes(path) == path;
    assert Lower(path) == path;
  }

  lemma KeyOfPath(s: Screen)
    ensures Key(PathOf(s)) == PathOf(s)
  {
    match s
    case LoginScreen => CanonicalIsOwnKey("/login");
    case RegisterScreen => CanonicalIsOwnKey("/register");
    case DashboardScreen => CanonicalIsOwnKey("/dashboard");
    case TasksScreen => CanonicalIsOwnKey("/tasks");
    case ProfileScreen => CanonicalIsOwnKey("/profile");
    case UsersScreen => CanonicalIsOwnKey("/users");
  }

  /** Each screen's path leads to that screen behind its guard, and the
      root redirects to the dashboard. */
  lemma RouteTable(s: Screen)
    ensures RouteOf(PathOf(s)) == Guarded(GuardOf(s), s)
    ensures RouteOf("/") == Goto(Dashboard)
  {
    KeyOfPath(s);
    assert Key("/") == "";
    match s
    case LoginScreen =>
    case RegisterScreen =>
    case DashboardScreen =>
    case TasksScreen =>
    case ProfileScreen =>
    case UsersScreen =>
  }

  /** Where the trailing slashes before `j` start depends only on the first
      `j` characters. */
  lemma {:induction false} SlashesFromPrefix(p: string, q: string, j: nat)
    requires j <= |p| && j <= |q| && p[..j] == q[..j]
    ensures SlashesFrom(p, j) == SlashesFrom(q, j)
    decreases j
  {
    if j > 0 {
      assert p[j - 1] == p[..j][j - 1] && q[j - 1] == q[..j][j - 1];
      assert p[..j - 1] == p[..j][..j - 1] && q[..j - 1] == q[..j][..j - 1];
      SlashesFromPrefix(p, q, j - 1);
    }
  }

  /** A trailing slash does not change the route. */
  lemma TrailingSlashIgnored(path: string)
    ensures RouteOf(path + "/") == RouteOf(path)
  {
    var p := path + "/";
    assert p[..|path|] == path[..|path|];
    SlashesFromPrefix(p, path, |path|);
    assert StripSlashes(p) == StripSlashes(path);
  }

  lemma {:induction false} SlashesFromLower(path: string, j: nat)
    requires j <= |path|
    ensures SlashesFrom(Lower(path), j) == SlashesFrom(path, j)
    decreases j
  {
    if j > 0 {
      SlashesFromLower(path, j - 1);
    }
  }

  lemma StripLower(path: string)
    ensures StripSlashes(Lower(path)) == Lower(StripSlashes(path))
  {
    SlashesFromLower(path, |path|);
  }

  /** Letter case does not change the route. */
  lemma CaseIgnored(path: string)
    ensures RouteOf(Lower(path)) == RouteOf(path)
  {
    StripLower(path);
    var s := StripSlashes(path);
    assert Lower(Lower(s)) == Lower(s);
  }

  /** What visiting a path produces, before following any redirect. */
  datatype Outcome = Waiting | Shows(screen: Screen) | Moves(to: string)

  function Visit(path: string, a: Auth): (o: Outcome)
    ensures o.Moves? ==> o.to == Dashboard || o.to == Login
  {
    match RouteOf(path)
    case Goto(to) => Moves(to)
    case Guarded(g, s) =>
      match Decide(g, a)
      case Spinner => Waiting
      case Render => Shows(s)
      case Redirect(to) => Moves(to)
  }

  /** Visiting a path and following at most `hops` redirects. */
  function Follow(path: string, a: Auth, hops: nat): Outcome
    decreases hops
  {
    match Visit(path, a)
    case Moves(to) => if hops == 0 then Moves(to) else Follow(to, a, hops - 1)
    case o => o
  }

  /** Once the session is restored, every path settles on a screen after at
      most two redirects: there is no redirect loop. */
  lemma NoRedirectLoop(path: string, a: Auth)
    requires !a.loading
    ensures Follow(path, a, 2).Shows?
  {
    RouteTable(DashboardScreen);
    RouteTable(LoginScreen);
    var first := Visit(path, a);
    if first.Moves? {
      var second := Visit(first.to, a);
      if first.to == Dashboard {
        assert second == (if a.user.Some? then Shows(DashboardScreen) else Moves(Login));
      } else {
        assert second == (if a.user.None? then Shows(LoginScreen) else Moves(Dashboard));
      }
      if second.Moves? {
        assert Visit(second.to, a).Shows?;
      }
    }
  }

  /** The screens that only signed-in users reach. */
  predicate NeedsUser(s: Screen) {
    s == DashboardScreen || s == TasksScreen || s == ProfileScreen || s == UsersScreen
  }

  /** Whatever path is visited and however many redirects are followed, a
      signed-in screen is shown only to a signed-in user, the users screen
      only to an admin, and the login and register screens only to nobody. */
  lemma {:induction false} ScreensRespectAuth(path: string, a: Auth, hops: nat)
    ensures var o := Follow(path, a, hops);
      && (o.Shows? && NeedsUser(o.screen) ==> a.user.Some?)
      && (o.Shows? && o.screen == UsersScreen ==> a.user.Some? && a.user.value.role == Admin)
      && (o.Shows? && (o.screen == LoginScreen || o.screen == RegisterScreen) ==> a.user.None?)
    decreases hops
  {
    var v := Visit(path, a);
    if v.Moves? && hops > 0 {
      ScreensRespectAuth(v.to, a, hops - 1);
    }
  }

  /** While the session is being restored every guarded path shows the
      spinner, whoever the user is. */
  lemma LoadingShowsSpinner(path: string, a: Auth)
    requires a.loading && RouteOf(path).Guarded?
    ensures Visit(path, a) == Waiting
  {
  }
}

=== FILE: client.dfy ===
/** What the pages see of the server: the outcome of an API call and the
    alert banner they show. */
module Client {
  import opened Js

  /** The outcome of an API call: success, or a rejected promise whose
      `error.response` carries an optional status and an optional
      `data.message` (both absent when no response arrived). */
  datatype ApiResult = Ok | Failed(status: Option<int>, message: Option<string>)

  datatype AlertKind = Success | Error

  /** The alert banner; its five-second dismissal timer is not modelled. */
  datatype Alert = Alert(kind: AlertKind, message: string)

  /** `error.response?.data?.message || fallback`. */
  function FailureText(res: ApiResult, fallback: string): (m: string)
    requires res.Failed?
    ensures res.message.Some? && res.message.value != "" ==> m == res.message.value
    ensures res.message == None || res.message == Some("") ==> m == fallback
  {
    OrElse(res.message, fallback)
  }
}

=== FILE: error_handler.dfy ===
/** The Express error handler: the mapping from an error's `name` to the
    HTTP status and message of the JSON reply. */
module ErrorHandler {
  import opened Js
  import opened Strings

  /** The fields of a thrown error the handler reads: its `name`, its
      `message`, an own `statusCode` if it has one, and, for a Sequelize
      validation error, the messages of its inner `errors`. */
  datatype AppError = AppError(
    name: string,
    message: string,
    statusCode: Option<int>,
    errors: seq<string>)

  /** The reply body `{ success, message }` with its status code. */
  datatype ErrorReply = ErrorReply(status: int, success: bool, message: string)

  const ValidationName := "SequelizeValidationError"
  const UniqueName := "SequelizeUniqueConstraintError"
  const DatabaseName := "SequelizeDatabaseError"
  const ForeignKeyName := "SequelizeForeignKeyConstraintError"
  const JwtName := "JsonWebTokenError"
  const ExpiredName := "TokenExpiredError"

  /** The names the handler recognises. */
  predicate Known(name: string) {
    name in {ValidationName, UniqueName, DatabaseName, ForeignKeyName, JwtName, ExpiredName}
  }

  /** The (status, message) the handler assigns to a recognised error, or
      the error's own `statusCode` and `message` otherwise. */
  function Classify(err: AppError): (Option<int>, string) {
    if err.name == ValidationName then (Some(400), Join(err.errors, ", "))
    else if err.name == UniqueName then (Some(400), "Duplicate field value entered")
    else if err.name == DatabaseName then (Some(400), "Database error occurred")
    else if err.name == ForeignKeyName then (Some(400), "Invalid reference to related data")
    else if err.name == JwtName then (Some(401), "Invalid token")
    else if err.name == ExpiredName then (Some(401), "Token expired")
    else (err.statusCode, err.message)
  }

  /** The handler: `error.statusCode || 500` and `error.message || 'Server
      Error'`, so a zero status or an empty message falls back. */
  function Handle(err: AppError): (r: ErrorReply)
    ensures !r.success
    ensures r.status != 0 && r.message != ""
    ensures err.name == ValidationName && err.errors != [] && err.errors[0] != "" ==>
      r.status == 400 && r.message == Join(err.errors, ", ")
    ensures err.name in {UniqueName, DatabaseName, ForeignKeyName} ==> r.status == 400
    ensures err.name in {JwtName, ExpiredName} ==> r.status == 401
    ensures !Known(err.name) ==>
      && r.status == (if err.statusCode.Some? && err.statusCode.value != 0 then err.statusCode.value else 500)
      && r.message == (if err.message != "" then err.message else "Server Error")
  {
    var (status, message) := Classify(err);
    ErrorReply(
      if status.Some? && status.value != 0 then status.value else 500,
      false,
      if message != "" then message else "Server Error")
  }

  /** The fixed table of recognised names. */
  lemma KnownErrorTable(err: AppError)
    ensures err.name == UniqueName ==> Handle(err) == ErrorReply(400, false, "Duplicate field value entered")
    ensures err.name == DatabaseName ==> Handle(err) == ErrorReply(400, false, "Database error occurred")
    ensures err.name == ForeignKeyName ==> Handle(err) == ErrorReply(400, false, "Invalid reference to related data")
    ensures err.name == JwtName ==> Handle(err) == ErrorReply(401, false, "Invalid token")
    ensures err.name == ExpiredName ==> Handle(err) == ErrorReply(401, false, "Token expired")
  {
  }

  /** A validation error reports its inner messages joined by ", "; when
      there are none (or the only one is empty) the joined text is empty and
      the reply falls back to "Server Error", still with status 400. */
  lemma ValidationErrorReply(err: AppError)
    requires err.name == ValidationName
    ensures Handle(err).status == 400
    ensures (|err.errors| == 0 || (|err.errors| == 1 && err.errors[0] == "")) <==>
      Handle(err).message == "Server Error" && Join(err.errors, ", ") == ""
    ensures Join(err.errors, ", ") != "" ==> Handle(err).message == Join(err.errors, ", ")
  {
    JoinEmptyIff(err.errors, ", ");
  }
}

=== FILE: helpers.dfy ===
/** The client's display helpers: text truncation, the priority and status
    colours, and the "missing input" branches of the date helpers. Locale
    formatting and date parsing are parameters. */
module Helpers {
  import opened Js
  import opened TaskModel

  const Red := "#ef4444"
  const Orange := "#f59e0b"
  const Green := "#10b981"
  const Blue := "#3b82f6"
  const Gray := "#6b7280"

  const Ellipsis := "..."

  /** `text.substring(0, n)`: a negative end counts as 0 and an end past the
      text as its length. */
  function Substring(text: string, n: int): (r: string)
    ensures |r| == if n < 0 then 0 else if n > |text| then |text| else n
    ensures r == text[..|r|]
  {
    if n < 0 then [] else if n > |text| then text else text[..n]
  }

  /** `truncateText`: a text that fits is returned as is; a longer one is cut
      to `maxLength` characters (none, for a negative `maxLength`) and gets
      an ellipsis. */
  function TruncateText(text: string, maxLength: int): (r: string)
    ensures |text| <= maxLength ==> r == text
    ensures |text| > maxLength >= 0 ==>
      |r| == maxLength + 3 && r[..maxLength] == text[..maxLength] && r[maxLength..] == Ellipsis
    ensures maxLength < 0 ==> r == Ellipsis
  {
    if |text| <= maxLength then text else Substring(text, maxLength) + Ellipsis
  }

  /** Truncating a second time with the same bound changes nothing. */
  lemma TruncateIdempotent(text: string, maxLength: int)
    ensures TruncateText(TruncateText(text, maxLength), maxLength) == TruncateText(text, maxLength)
  {
    var r := TruncateText(text, maxLength);
    if |text| > maxLength {
      assert |r| > maxLength;
      if maxLength >= 0 {
        assert Substring(r, maxLength) == text[..maxLength];
      }
    }
  }

  /** What the reader sees of the original is always a prefix of it. */
  lemma TruncateKeepsPrefix(text: string, maxLength: int)
    ensures var r := TruncateText(text, maxLength);
      r == text || (exists n :: 0 <= n <= |text| && r == text[..n] + Ellipsis)
  {
    if |text| > maxLength {
      var n := if maxLength < 0 then 0 else maxLength;
      assert TruncateText(text, maxLength) == text[..n] + Ellipsis;
    }
  }

  /** `getPriorityColor`: red, orange and green for high, medium and low;
      grey for anything else. */
  function PriorityColor(priority: string): (c: string)
    ensures priority == "high" ==> c == Red
    ensures priority == "medium" ==> c == Orange
    ensures priority == "low" ==> c == Green
    ensures c == Gray <==> ParsePriority(priority).None?
  {
    match priority
    case "high" => Red
    case "medium" => Orange
    case "low" => Green
    case _ => Gray
  }

  /** `getStatusColor`: green, blue and orange for completed, in-progress
      and pending; grey for anything else. */
  function StatusColor(status: string): (c: string)
    ensures status == "completed" ==> c == Green
    ensures status == "in-progress" ==> c == Blue
    ensures status == "pending" ==> c == Orange
    ensures c == Gray <==> ParseStatus(status).None?
  {
    match status
    case "completed" => Green
    case "in-progress" => Blue
    case "pending" => Orange
    case _ => Gray
  }

  /** Every priority of the model gets its own colour, and so does every
      status; none of them is the fallback grey. */
  lemma ColorsDistinguishEnums(p: Priority, q: Priority, s: Status, t: Status)
    ensures PriorityColor(PriorityName(p)) != Gray && StatusColor(StatusName(s)) != Gray
    ensures p != q ==> PriorityColor(PriorityName(p)) != PriorityColor(PriorityName(q))
    ensures s != t ==> StatusColor(StatusName(s)) != StatusColor(StatusName(t))
  {
  }

  /** The two renderings of a date: `toLocaleDateString` with year, short
      month and day, and `toLocaleString`, which adds the two-digit hour and
      minute. */
  datatype DateStyle = DateOnly | DateAndTime

  /** `formatDate` (`DateOnly`) and `formatDateTime` (`DateAndTime`): "N/A"
      for a missing or empty input, otherwise the locale rendering `render`
      of the date in that style. */
  function FormatDate(date: Option<string>, style: DateStyle, render: (string, DateStyle) -> string): (r: string)
    ensures date == None || date == Some("") ==> r == "N/A"
    ensures date.Some? && date.value != "" ==> r == render(date.value, style)
  {
    if date.Some? && date.value != "" then render(date.value, style) else "N/A"
  }

  /** `isOverdue`: false for a missing or empty due date; otherwise the date
      `parse` reads must lie before `now`. An unparsable text is an invalid
      date, which compares false with anything. */
  function IsOverdue(dueDate: Option<string>, parse: string -> Option<Date>, now: Date): (r: bool)
    ensures r <==> dueDate.Some? && dueDate.value != "" &&
                   parse(dueDate.value).Some? && parse(dueDate.value).value < now
  {
    if dueDate == None || dueDate.value == "" then false
    else match parse(dueDate.value)
      case None => false
      case Some(d) => d < now
  }

  /** A due date is overdue only in the past: the same date is never overdue
      at an earlier time than one at which it is not. */
  lemma OverdueMonotone(dueDate: Option<string>, parse: string -> Option<Date>,
                                           now: Date, later: Date)
    requires now <= later
    ensures IsOverdue(dueDate, parse, now) ==> IsOverdue(dueDate, parse, later)
  {
  }
}

=== FILE: js.dfy ===
/** The JavaScript value shapes the model needs: an optional value (a key
    that may be `undefined`), the scalar JSON values a request body carries,
    their truthiness, and the string form a validator sees, numbers written
    in decimal. */
module Js {

  /** `None` is JavaScript's `undefined`; `Some(v)` a value that is present. */
  datatype Option<+T> = None | Some(value: T) {
    /** `x ?? d`: the value, or `d` when absent. */
    function GetOr(d: T): T {
      match this
      case Some(v) => v
      case None => d
    }
  }

  /** A scalar JSON value from a parsed request body. Numbers are the
      integers, read as below 10^21 in magnitude (where `String` still
      writes every digit); fractions, arrays and objects are not part of
      this model. */
  datatype Json = JNull | JBool(b: bool) | JNum(n: int) | JStr(s: string)

  /** JavaScript truthiness of a present value. */
  predicate Truthy(v: Json) {
    match v
    case JNull => false
    case JBool(b) => b
    case JNum(n) => n != 0
    case JStr(s) => s != ""
  }

  predicate IsDigit(c: char) {
    '0' <= c <= '9'
  }

  function DigitChar(d: int): (c: char)
    requires 0 <= d < 10
    ensures IsDigit(c)
  {
    ('0' as int + d) as char
  }

  predicate AllDigits(s: string) {
    forall k :: 0 <= k < |s| ==> IsDigit(s[k])
  }

  /** `n` split into its last decimal digit and the number before it,
      by repeated subtraction. */
  function Split10(n: nat): (p: (nat, nat))
    ensures p.1 < 10 && n == p.0 * 10 + p.1
    ensures n >= 10 ==> p.0 < n
  {
    if n < 10 then (0, n) else var q := Split10(n - 10); (q.0 + 1, q.1)
  }

  /** The decimal digits of `n`, without leading zeros. */
  function Digits(n: nat): (r: string)
    ensures 1 <= |r| && (n < 10 <==> |r| == 1)
  {
    if n < 10 then [DigitChar(n)]
    else var p := Split10(n); Digits(p.0) + [DigitChar(p.1)]
  }

  lemma {:induction false} DigitsAreDigits(n: nat)
    ensures AllDigits(Digits(n))
    decreases n
  {
    if n >= 10 {
      DigitsAreDigits(Split10(n).0);
    }
  }

  /** The value of a string of decimal digits. */
  function DigitsValue(s: string): (n: nat)
    requires AllDigits(s)
  {
    if s == [] then 0
    else
      assert IsDigit(s[|s| - 1]);
      DigitsValue(s[..|s| - 1]) * 10 + (s[|s| - 1] as int - '0' as int)
  }

  /** Reading the digits back gives the number. */
  lemma {:induction false} DigitsRoundTrip(n: nat)
    ensures AllDigits(Digits(n)) && DigitsValue(Digits(n)) == n
    decreases n
  {
    DigitsAreDigits(n);
    if n >= 10 {
      var p := Split10(n);
      DigitsRoundTrip(p.0);
      var r := Digits(n);
      assert r[..|r| - 1] == Digits(p.0);
    }
  }

  /** `String(n)` for an integer below 10^21 in magnitude: its decimal
      digits, after a minus sign when it is negative. From 10^21 on
      JavaScript writes exponent form ("1e+21"), which this does not. */
  function Decimal(n: int): string {
    if n < 0 then "-" + Digits(-n) else Digits(n)
  }

  /** The string form starts with a minus sign exactly for a negative
      number. */
  lemma SignVisible(n: int)
    ensures Decimal(n)[0] == '-' <==> n < 0
  {
    if n >= 0 {
      DigitsAreDigits(n);
      assert IsDigit(Digits(n)[0]);
    }
  }

  /** Distinct numbers have distinct digit strings. */
  lemma DigitsInjective(m: nat, n: nat)
    requires Digits(m) == Digits(n)
    ensures m == n
  {
    DigitsRoundTrip(m);
    DigitsRoundTrip(n);
  }

  /** A number's string form determines the number. */
  lemma DecimalInjective(m: int, n: int)
    requires Decimal(m) == Decimal(n)
    ensures m == n
  {
    SignVisible(m);
    SignVisible(n);
    if m < 0 {
      assert Decimal(m)[1..] == Digits(-m);
      assert Decimal(n)[1..] == Digits(-n);
      DigitsInjective(-m, -n);
    } else {
      DigitsInjective(m, n);
    }
  }

  /** The string form a validator works on: `null` and `undefined` become
      the empty string, booleans their literal spelling, numbers their
      decimal form (exact below 10^21 in magnitude). */
  function ToStr(v: Option<Json>): (r: string)
    ensures v == None || v == Some(JNull) ==> r == ""
    ensures v.Some? && v.value.JStr? ==> r == v.value.s
    ensures v.Some? && v.value.JNum? ==> r == Decimal(v.value.n)
  {
    match v
    case None => ""
    case Some(JNull) => ""
    case Some(JBool(b)) => if b then "true" else "false"
    case Some(JNum(n)) => Decimal(n)
    case Some(JStr(s)) => s
  }

  /** `m || d` for an optional string: `m` when it is present and non-empty,
      `d` otherwise. */
  function OrElse(m: Option<string>, d: string): (r: string)
    ensures m.Some? && m.value != "" ==> r == m.value
    ensures m == None || m == Some("") ==> r == d
    ensures d != "" ==> r != ""
  {
    if m.Some? && m.value != "" then m.value else d
  }
}

=== FILE: like.dfy ===
/** SQL `LIKE` / `ILIKE` pattern matching as PostgreSQL evaluates it, with
    the default escape character `\`, and an escaping function that turns a
    text into a pattern matching only that text. */
module Like {
  import opened Strings

  const Esc: char := '\\'

  /** `s LIKE p`: `%` matches any run of characters, `_` any one character,
      and `\` makes the next pattern character literal. A pattern that ends
      in a lone `\` is an error in PostgreSQL; the patterns this model builds
      always end in `%`, and here a lone trailing `\` matches itself. */
  function Matches(s: string, p: string): bool
    decreases |s| + |p|
  {
    if p == [] then s == []
    else if p[0] == '%' then Matches(s, p[1..]) || (s != [] && Matches(s[1..], p))
    else if p[0] == '_' then s != [] && Matches(s[1..], p[1..])
    else if p[0] == Esc && |p| >= 2 then s != [] && s[0] == p[1] && Matches(s[1..], p[2..])
    else s != [] && s[0] == p[0] && Matches(s[1..], p[1..])
  }

  /** `s ILIKE p`: both sides are case-folded, character by character, by
      the database collation's folding `fold`, and then matched. */
  predicate ILike(s: string, p: string, fold: char -> char) {
    Matches(Fold(s, fold), Fold(p, fold))
  }

  /** The characters with a meaning inside a `LIKE` pattern. */
  predicate IsMeta(c: char) {
    c == '%' || c == '_' || c == Esc
  }

  predicate MetaFree(q: string) {
    forall k :: 0 <= k < |q| ==> !IsMeta(q[k])
  }

  /** A collation's case folding leaves `%`, `_` and `\` alone and folds no
      other character onto one of them. */
  predicate FoldKeepsMeta(fold: char -> char) {
    forall c :: (IsMeta(c) ==> fold(c) == c) && (IsMeta(fold(c)) ==> IsMeta(c))
  }

  /** Prefixes every pattern meta-character of `q` with the escape. */
  function EscapeLike(q: string): (p: string)
    ensures |q| <= |p| <= 2 * |q|
    ensures MetaFree(q) ==> p == q
  {
    if q == [] then []
    else (if IsMeta(q[0]) then [Esc, q[0]] else [q[0]]) + EscapeLike(q[1..])
  }

  /** `%` alone matches every string. */
  lemma {:induction false} PercentMatchesAll(s: string)
    ensures Matches(s, "%")
  {
    if s != [] {
      PercentMatchesAll(s[1..]);
    }
  }

  lemma MatchEscapedChar(s: string, c: char, tail: string)
    ensures Matches(s, [Esc, c] + tail) <==> s != [] && s[0] == c && Matches(s[1..], tail)
  {
    var p := [Esc, c] + tail;
    assert p[0] == Esc && p[1] == c && p[2..] == tail;
  }

  lemma MatchPlainChar(s: string, c: char, tail: string)
    requires !IsMeta(c)
    ensures Matches(s, [c] + tail) <==> s != [] && s[0] == c && Matches(s[1..], tail)
  {
    var p := [c] + tail;
    assert p[0] == c && p[1..] == tail;
  }

  /** One escaped character at the head of a pattern matches exactly that
      character. */
  lemma EscapedStep(s: string, q: string, rest: string)
    requires q != []
    ensures Matches(s, EscapeLike(q) + rest) <==>
      s != [] && s[0] == q[0] && Matches(s[1..], EscapeLike(q[1..]) + rest)
  {
    var tail := EscapeLike(q[1..]) + rest;
    if IsMeta(q[0]) {
      assert EscapeLike(q) + rest == [Esc, q[0]] + tail;
      MatchEscapedChar(s, q[0], tail);
    } else {
      assert EscapeLike(q) + rest == [q[0]] + tail;
      MatchPlainChar(s, q[0], tail);
    }
  }

  /** An escaped text at the head of a pattern consumes exactly that text. */
  lemma {:induction false} EscapedPrefix(s: string, q: string, rest: string)
    ensures Matches(s, EscapeLike(q) + rest) <==>
      |q| <= |s| && s[..|q|] == q && Matches(s[|q|..], rest)
    decreases |q|
  {
    if q == [] {
      assert EscapeLike(q) + rest == rest;
      assert s[..0] == q && s[0..] == s;
    } else {
      EscapedStep(s, q, rest);
      if s != [] {
        EscapedPrefix(s[1..], q[1..], rest);
        if |q| <= |s| {
          assert s[1..][|q| - 1..] == s[|q|..];
          assert s[..|q|] == [s[0]] + s[1..][..|q| - 1];
          assert q == [q[0]] + q[1..];
        }
      }
    }
  }

  /** A leading `%` lets the rest of the pattern match any suffix. */
  lemma {:induction false} LeadingPercent(s: string, r: string)
    ensures Matches(s, "%" + r) <==> exists i :: 0 <= i <= |s| && Matches(s[i..], r)
    decreases |s|
  {
    var p := "%" + r;
    assert p[0] == '%' && p[1..] == r;
    if s == [] {
      assert Matches(s, p) <==> Matches(s, r);
      assert s[0..] == s;
    } else {
      LeadingPercent(s[1..], r);
      assert Matches(s, p) <==> Matches(s, r) || Matches(s[1..], p);
      if Matches(s, p) {
        if Matches(s, r) {
          assert s[0..] == s;
        } else {
          var i :| 0 <= i <= |s| - 1 && Matches(s[1..][i..], r);
          assert s[1..][i..] == s[i + 1..];
        }
      }
      if exists i :: 0 <= i <= |s| && Matches(s[i..], r) {
        var i :| 0 <= i <= |s| && Matches(s[i..], r);
        if i == 0 {
          assert s[0..] == s;
        } else {
          assert s[1..][i - 1..] == s[i..];
        }
      }
    }
  }

  /** Wrapping an escaped text in `%…%` is exactly substring search. */
  lemma SubstringPattern(s: string, q: string)
    ensures Matches(s, "%" + EscapeLike(q) + "%") <==> Contains(s, q)
  {
    var r := EscapeLike(q) + "%";
    assert "%" + EscapeLike(q) + "%" == "%" + r;
    LeadingPercent(s, r);
    forall i | 0 <= i <= |s|
      ensures Matches(s[i..], r) <==> OccursAt(s, q, i)
    {
      EscapedPrefix(s[i..], q, "%");
      if |q| <= |s| - i {
        PercentMatchesAll(s[i..][|q|..]);
        assert s[i..][..|q|] == s[i..i + |q|];
      }
    }
    if Contains(s, q) {
      var i :| 0 <= i <= |s| - |q| && OccursAt(s, q, i);
      assert Matches(s[i..], r);
    }
  }

  /** Case folding commutes with escaping, since folding neither creates
      nor changes a meta-character. */
  lemma {:induction false} FoldEscape(q: string, fold: char -> char)
    requires FoldKeepsMeta(fold)
    ensures Fold(EscapeLike(q), fold) == EscapeLike(Fold(q, fold))
  {
    if q != [] {
      FoldEscape(q[1..], fold);
      var head := if IsMeta(q[0]) then [Esc, q[0]] else [q[0]];
      FoldAppend(head, EscapeLike(q[1..]), fold);
      assert Fold(q, fold)[1..] == Fold(q[1..], fold);
      assert Fold(q, fold)[0] == fold(q[0]);
      assert Fold(head, fold) == if IsMeta(q[0]) then [Esc, q[0]] else [fold(q[0])];
    }
  }

  /** The `%text%` pattern with the text escaped is a case-insensitive
      substring test, under the collation's folding. */
  lemma ILikeSubstring(s: string, q: string, fold: char -> char)
    requires FoldKeepsMeta(fold)
    ensures ILike(s, "%" + EscapeLike(q) + "%", fold) <==> Contains(Fold(s, fold), Fold(q, fold))
  {
    FoldAppend("%" + EscapeLike(q), "%", fold);
    FoldAppend("%", EscapeLike(q), fold);
    FoldEscape(q, fold);
    assert Fold("%", fold) == "%";
    assert Fold("%" + EscapeLike(q) + "%", fold) == "%" + EscapeLike(Fold(q, fold)) + "%";
    SubstringPattern(Fold(s, fold), Fold(q, fold));
  }
}

=== FILE: profile.dfy ===
/** The profile page: the checks the password form makes before calling
    the server, what it does with the answer, and how a profile edit is
    merged into the user record kept in the browser. */
module Profile {
  import opened Js
  import opened Strings
  import opened Client
  import UserModel

  /** The three fields of the password form. */
  datatype PasswordForm = PasswordForm(current: string, newPassword: string, confirm: string)

  const EmptyForm := PasswordForm("", "", "")

  const Mismatch := "Passwords do not match"
  const TooShort := "Password must be at least 6 characters"

  /** The first step of `handleChangePassword`: a refusal shown as an error
      alert, or the request that is sent. */
  datatype PasswordCheck = Refused(message: string) | Send(currentPassword: string, newPassword: string)

  /** The two client checks, the mismatch first: a request is sent only when
      the new password equals its confirmation and has at least 6
      characters, and it carries the current and the new password. */
  function CheckPasswordForm(f: PasswordForm): (r: PasswordCheck)
    ensures r.Send? <==> f.newPassword == f.confirm && |f.newPassword| >= 6
    ensures f.newPassword != f.confirm ==> r == Refused(Mismatch)
    ensures f.newPassword == f.confirm && |f.newPassword| < 6 ==> r == Refused(TooShort)
    ensures r.Send? ==> r.currentPassword == f.current && r.newPassword == f.newPassword
  {
    if f.newPassword != f.confirm then Refused(Mismatch)
    else if |f.newPassword| < 6 then Refused(TooShort)
    else Send(f.current, f.newPassword)
  }

  /** The form and alert after the request: success clears all three
      fields; a failure keeps them and shows the server's message (default
      "Failed to change password"). */
  function AfterPasswordChange(f: PasswordForm, res: ApiResult): (r: (PasswordForm, Alert))
    ensures res.Ok? ==> r.0 == EmptyForm && r.1 == Alert(Success, "Password changed successfully")
    ensures res.Failed? ==> r.0 == f && r.1 == Alert(Error, FailureText(res, "Failed to change password"))
  {
    if res.Ok? then (EmptyForm, Alert(Success, "Password changed successfully"))
    else (f, Alert(Error, FailureText(res, "Failed to change password")))
  }

  /** After a successful change the form is empty, and submitting it again
      is refused before any request: its new password is too short. */
  lemma ResetFormIsRefused(f: PasswordForm)
    ensures CheckPasswordForm(AfterPasswordChange(f, Ok).0) == Refused(TooShort)
  {
  }

  /** The client's length check is the lower bound of the user model's
      password rule; the model's other rules are the server's to enforce:
      six spaces pass the form and fail the model. */
  lemma FormCheckWithinModel(f: PasswordForm)
    ensures CheckPasswordForm(f).Send? ==> !(|f.newPassword| < 6)
    ensures CheckPasswordForm(f).Send? && !AllSpace(f.newPassword) && |f.newPassword| <= 100 ==>
      UserModel.PasswordErrors(f.newPassword) == []
    ensures var spaces := PasswordForm("old", "      ", "      ");
      CheckPasswordForm(spaces).Send? && UserModel.PasswordErrors(spaces.newPassword) != []
  {
    var spaces := "      ";
    assert AllSpace(spaces);
  }

  /** The stored user, as parsed from local storage, and the two fields of
      the profile form. */
  datatype ProfileData = ProfileData(name: string, email: string)

  /** `{ ...JSON.parse(storedUser), ...profileData }`: the stored keys with
      `name` and `email` taken from the form. Nothing is written when no
      user is stored. */
  function MergeStoredUser(stored: Option<map<string, Json>>, data: ProfileData): (r: Option<map<string, Json>>)
    ensures r.Some? <==> stored.Some?
    ensures r.Some? ==> r.value.Keys == stored.value.Keys + {"name", "email"}
    ensures r.Some? ==> r.value["name"] == JStr(data.name) && r.value["email"] == JStr(data.email)
    ensures r.Some? ==> forall k :: k in stored.value && k != "name" && k != "email" ==>
      r.value[k] == stored.value[k]
  {
    match stored
    case None => None
    case Some(u) => Some(u["name" := JStr(data.name)]["email" := JStr(data.email)])
  }

  /** Saving the same profile twice stores the same record as saving it once. */
  lemma MergeIdempotent(stored: Option<map<string, Json>>, data: ProfileData)
    ensures MergeStoredUser(MergeStoredUser(stored, data), data) == MergeStoredUser(stored, data)
  {
    if stored.Some? {
      var once := MergeStoredUser(stored, data).value;
      var twice := MergeStoredUser(Some(once), data).value;
      assert twice.Keys == once.Keys;
      assert forall k :: k in once ==> twice[k] == once[k];
      assert twice == once;
    }
  }

  /** The alert after a profile update: success, or the server's message
      (default "Failed to update profile"). */
  function ProfileUpdateAlert(res: ApiResult): (a: Alert)
    ensures res.Ok? <==> a.kind == Success
    ensures res.Ok? ==> a.message == "Profile updated successfully"
    ensures res.Failed? ==> a.message == FailureText(res, "Failed to update profile")
  {
    if res.Ok? then Alert(Success, "Profile updated successfully")
    else Alert(Error, FailureText(res, "Failed to update profile"))
  }

  /** The local record changes only when the update succeeds. */
  function SaveProfile(stored: Option<map<string, Json>>, data: ProfileData, res: ApiResult): (r: Option<map<string, Json>>)
    ensures res.Failed? ==> r == stored
    ensures res.Ok? ==> r == MergeStoredUser(stored, data)
  {
    if res.Ok? then MergeStoredUser(stored, data) else stored
  }
}

=== FILE: strings.dfy ===
/** String primitives the JavaScript code relies on: the whitespace class of
    `\s`, `String.prototype.trim`, ASCII lower-casing, substring search and
    `Array.prototype.join`. */
module Strings {

  /** The characters JavaScript's `\s` and `trim` treat as white space: the
      WhiteSpace and LineTerminator productions of ECMAScript. */
  predicate IsSpace(c: char) {
    || c == ' ' || c == '\t' || c == '\n' || c == '\r'
    || c == '\U{000B}' || c == '\U{000C}'
    || c == '\U{00A0}' || c == '\U{1680}'
    || ('\U{2000}' <= c <= '\U{200A}')
    || c == '\U{2028}' || c == '\U{2029}' || c == '\U{202F}'
    || c == '\U{205F}' || c == '\U{3000}' || c == '\U{FEFF}'
  }

  /** Every character of `s` is white space (the empty string included). */
  predicate AllSpace(s: string) {
    forall k :: 0 <= k < |s| ==> IsSpace(s[k])
  }

  /** The first index at or after `i` whose character is not white space,
      or `|s|` when there is none. */
  function SkipSpace(s: string, i: nat): (j: nat)
    requires i <= |s|
    ensures i <= j <= |s|
    ensures forall k :: i <= k < j ==> IsSpace(s[k])
    ensures j == |s| || !IsSpace(s[j])
    decreases |s| - i
  {
    if i < |s| && IsSpace(s[i]) then SkipSpace(s, i + 1) else i
  }

  /** Walking back from `j` towards `i`: the index just past the last
      character that is not white space, or `i` when there is none. */
  function SkipSpaceBack(s: string, i: nat, j: nat): (e: nat)
    requires i <= j <= |s|
    ensures i <= e <= j
    ensures forall k :: e <= k < j ==> IsSpace(s[k])
    ensures e == i || !IsSpace(s[e - 1])
    decreases j
  {
    if i < j && IsSpace(s[j - 1]) then SkipSpaceBack(s, i, j - 1) else j
  }

  /** `r` sits in `s` at index `i` with only white space before and after it. */
  predicate TrimmedAt(s: string, r: string, i: int) {
    && 0 <= i <= |s| - |r|
    && s[i..i + |r|] == r
    && AllSpace(s[..i])
    && AllSpace(s[i + |r|..])
  }

  /** Neither the first nor the last character of `r` is white space. */
  predicate NoSpaceAtEnds(r: string) {
    r == [] || (!IsSpace(r[0]) && !IsSpace(r[|r| - 1]))
  }

  /** `String.prototype.trim`: `s` with white space removed from both ends.
      The result is a slice of `s` between a white-space prefix and a
      white-space suffix, has no white space at either end, and is empty
      exactly when `s` is all white space. */
  function Trim(s: string): (r: string)
    ensures exists i :: TrimmedAt(s, r, i)
    ensures NoSpaceAtEnds(r)
    ensures r == [] <==> AllSpace(s)
  {
    var i := SkipSpace(s, 0);
    var e := SkipSpaceBack(s, i, |s|);
    assert TrimmedAt(s, s[i..e], i);
    assert e == i ==> AllSpace(s) by {
      if e == i {
        forall k | 0 <= k < |s| ensures IsSpace(s[k]) {
          if k < i { assert s[..i][k] == s[k]; }
        }
      }
    }
    s[i..e]
  }

  /** The contract of `Trim` pins its result down: a non-empty slice with
      white space around it and none at its ends is the trim. */
  lemma TrimCharacterised(s: string, r: string, i: int)
    requires TrimmedAt(s, r, i) && NoSpaceAtEnds(r) && r != []
    ensures Trim(s) == r
  {
    var j := SkipSpace(s, 0);
    var e := SkipSpaceBack(s, j, |s|);
    assert s[i] == r[0];
    assert j == i;
    assert s[i + |r| - 1] == r[|r| - 1];
    assert e == i + |r|;
  }

  lemma AllSpaceAppend(x: string, y: string)
    requires AllSpace(x) && AllSpace(y)
    ensures AllSpace(x + y)
  {
    assert forall k :: 0 <= k < |x + y| ==> (x + y)[k] == if k < |x| then x[k] else y[k - |x|];
  }

  /** A string that already has no white space at either end is its own trim. */
  lemma TrimOfTrimmed(s: string)
    requires NoSpaceAtEnds(s)
    ensures Trim(s) == s
  {
    if s != [] {
      assert TrimmedAt(s, s, 0);
      TrimCharacterised(s, s, 0);
    }
  }

  /** Trimming twice is the same as trimming once. */
  lemma TrimIdempotent(s: string)
    ensures Trim(Trim(s)) == Trim(s)
  {
    TrimOfTrimmed(Trim(s));
  }

  /** `s` with the character mapping `f` applied to each character. */
  function Fold(s: string, f: char -> char): (r: string)
    ensures |r| == |s|
    ensures forall k :: 0 <= k < |s| ==> r[k] == f(s[k])
  {
    if s == [] then [] else [f(s[0])] + Fold(s[1..], f)
  }

  /** Folding distributes over concatenation. */
  lemma FoldAppend(a: string, b: string, f: char -> char)
    ensures Fold(a + b, f) == Fold(a, f) + Fold(b, f)
  {
    assert forall k :: 0 <= k < |a + b| ==> Fold(a + b, f)[k] == (Fold(a, f) + Fold(b, f))[k];
  }

  /** ASCII case folding. A JavaScript regular expression with the `i` flag
      and without the `u` flag never equates a character beyond ASCII with
      an ASCII one, so against an all-ASCII pattern its case-insensitive
      match is exactly equality after this folding. */
  function LowerChar(c: char): (d: char)
    ensures 'A' <= c <= 'Z' ==> 'a' <= d <= 'z' && d as int == c as int + 32
    ensures !('A' <= c <= 'Z') ==> d == c
  {
    if 'A' <= c <= 'Z' then (c as int - 'A' as int + 'a' as int) as char else c
  }

  /** `s` with every ASCII capital lowered. */
  function Lower(s: string): (r: string)
    ensures |r| == |s|
    ensures forall k :: 0 <= k < |s| ==> r[k] == LowerChar(s[k])
  {
    seq(|s|, k requires 0 <= k < |s| => LowerChar(s[k]))
  }

  /** `q` occurs in `s` as a contiguous substring. */
  predicate Contains(s: string, q: string) {
    exists i :: 0 <= i <= |s| - |q| && OccursAt(s, q, i)
  }

  /** `q` occurs in `s` starting at index `i`. */
  predicate OccursAt(s: string, q: string, i: int) {
    0 <= i <= |s| - |q| && s[i..i + |q|] == q
  }

  /** `Array.prototype.join(sep)` over a list of strings. */
  function Join(parts: seq<string>, sep: string): (r: string)
    ensures |parts| == 1 ==> r == parts[0]
    ensures |parts| > 0 ==> |parts[0]| <= |r| && r[..|parts[0]|] == parts[0]
  {
    if |parts| == 0 then ""
    else if |parts| == 1 then parts[0]
    else parts[0] + sep + Join(parts[1..], sep)
  }

  /** With a non-empty separator, the joined string is empty exactly when the
      list is empty or consists of one empty string. */
  lemma JoinEmptyIff(parts: seq<string>, sep: string)
    requires sep != ""
    ensures Join(parts, sep) == "" <==> (|parts| == 0 || (|parts| == 1 && parts[0] == ""))
  {
    if |parts| >= 2 {
      assert |Join(parts, sep)| >= |sep|;
    }
  }
}

=== FILE: task_card.dfy ===
/** The task card's decisions: the permission flags it computes for the
    signed-in user, the overdue badge, what a click on the completion
    circle does, and which footer it shows. */
module TaskCard {
  import opened Js
  import opened TaskModel
  import opened UserModel
  import opened Helpers
  import TaskController

  /** `canEdit`, `canDelete` and `canToggle`. */
  datatype Flags = Flags(canEdit: bool, canDelete: bool, canToggle: bool)

  /** The flags for `user` (`None` when nobody is signed in: `user?.id` is
      then `undefined`, which equals neither a creator id nor a `null`
      assignee). */
  function CardFlags(t: Task, user: Option<Actor>): (f: Flags)
    ensures user == None ==> f == Flags(false, false, false)
    ensures user.Some? ==>
      && f.canEdit == TaskController.CanUpdate(t, user.value)
      && f.canDelete == TaskController.CanDelete(t, user.value)
      && f.canToggle == TaskController.CanToggle(t, user.value)
  {
    var isCreator := user.Some? && t.createdBy == user.value.id;
    var isAssignee := user.Some? && t.assignedTo == Some(user.value.id);
    var isAdmin := user.Some? && user.value.role == Admin;
    Flags(isCreator || isAssignee || isAdmin, isCreator || isAdmin, isCreator || isAssignee || isAdmin)
  }

  /** The card's flags are the server's permission table: edit and toggle
      coincide, and whoever may delete may also edit. */
  lemma FlagsFollowTable(t: Task, a: Actor)
    ensures CardFlags(t, Some(a)).canEdit <==> TaskController.Permitted(TaskController.UpdateOp, t, a)
    ensures CardFlags(t, Some(a)).canToggle <==> TaskController.Permitted(TaskController.ToggleOp, t, a)
    ensures CardFlags(t, Some(a)).canDelete <==> TaskController.Permitted(TaskController.DeleteOp, t, a)
    ensures CardFlags(t, Some(a)).canEdit == CardFlags(t, Some(a)).canToggle
    ensures CardFlags(t, Some(a)).canDelete ==> CardFlags(t, Some(a)).canEdit
  {
    TaskController.GatesMatchTable(t, a);
  }

  /** `isOverdue(task.dueDate) && !task.isCompleted`, with `dueText` the due
      date as the client received it. */
  function Overdue(t: Task, dueText: Option<string>, parse: string -> Option<Date>, now: Date): (r: bool)
    ensures r ==> !t.isCompleted
    ensures !t.isCompleted ==> r == IsOverdue(dueText, parse, now)
  {
    IsOverdue(dueText, parse, now) && !t.isCompleted
  }

  /** A click on the completion circle: the id handed to `onToggleComplete`,
      or nothing when the user may not toggle. */
  function ToggleClick(t: Task, f: Flags): (call: Option<TaskId>)
    ensures call.Some? <==> f.canToggle
    ensures call.Some? ==> call.value == t.id
  {
    if f.canToggle then Some(t.id) else None
  }

  /** The Edit/Delete action bar. */
  predicate ShowsActions(f: Flags) {
    f.canEdit || f.canDelete
  }

  /** The "View only" notice. */
  predicate ShowsViewOnly(f: Flags) {
    !f.canEdit && !f.canDelete && !f.canToggle
  }

  /** With the card's own flags, exactly one of the two footers is shown,
      and the notice appears exactly for users who are neither creator,
      assignee nor admin. */
  lemma FooterIsExclusive(t: Task, user: Option<Actor>)
    ensures ShowsActions(CardFlags(t, user)) <==> !ShowsViewOnly(CardFlags(t, user))
    ensures ShowsViewOnly(CardFlags(t, user)) <==>
      (user == None || (t.createdBy != user.value.id && t.assignedTo != Some(user.value.id)
                        && user.value.role != Admin))
  {
  }

  /** The description line: a non-empty description, shown whole when it has
      at most 100 characters and otherwise as its first 100 followed by an
      ellipsis. */
  function DescriptionLine(t: Task): (line: Option<string>)
    ensures line.Some? <==> t.description.Some? && t.description.value != ""
    ensures line.Some? ==> |line.value| <= 103
    ensures line.Some? ==> var d := t.description.value;
      && (|d| <= 100 ==> line.value == d)
      && (|d| > 100 ==> line.value == d[..100] + Ellipsis)
  {
    if t.description.Some? && t.description.value != "" then Some(TruncateText(t.description.value, 100))
    else None
  }
}

=== FILE: task_controller.dfy ===
/** The task controller's write paths and single-task read: permission
    gates, the partial-update merge, creation defaults, and the replies
    each handler sends. The store is a map from id to task and the user
    directory the set of existing user ids; "now" and the id a new task
    receives are parameters. */
module TaskController {
  import opened Js
  import opened TaskModel
  import opened UserModel
  import ErrorHandler

  type Store = map<TaskId, Task>

  /** A JSON reply: status code, `success`, `message` and the task in `data`. */
  datatype Reply = Reply(status: int, success: bool, message: string, data: Option<Task>)

  /** The store after a request together with the reply sent. */
  datatype Outcome = Outcome(store: Store, reply: Reply)

  const TaskNotFound := Reply(404, false, "Task not found", None)
  const AssigneeNotFound := Reply(404, false, "Assigned user not found", None)
  const UpdateForbidden := Reply(403, false, "Not authorized to update this task", None)
  const DeleteForbidden := Reply(403, false,
    "Not authorized to delete this task. Only the task creator or admin can delete tasks.", None)
  const ToggleForbidden := Reply(403, false,
    "Not authorized to update this task. Only the creator, assignee, or admin can change task status.", None)

  /** Every stored task sits under its own id and has a completion time
      exactly when it is completed. */
  predicate StoreInvariant(store: Store) {
    forall k :: k in store ==> store[k].id == k && TimestampCoherent(store[k])
  }

  // ---------------------------------------------------------------------
  // Permission gates, as each handler writes them.

  predicate IsCreator(t: Task, a: Actor) { t.createdBy == a.id }
  predicate IsAssignee(t: Task, a: Actor) { t.assignedTo == Some(a.id) }
  predicate IsAdmin(a: Actor) { a.role == Admin }

  /** `updateTask`: refused when the actor is neither creator, assignee nor admin. */
  predicate CanUpdate(t: Task, a: Actor) {
    !(!IsCreator(t, a) && !IsAssignee(t, a) && !IsAdmin(a))
  }

  /** `deleteTask`: refused when the actor is not the creator and not an admin. */
  predicate CanDelete(t: Task, a: Actor) {
    !(t.createdBy != a.id && a.role != Admin)
  }

  /** `toggleTaskCompletion`: the same three-way test as update. */
  predicate CanToggle(t: Task, a: Actor) {
    !(!IsCreator(t, a) && !IsAssignee(t, a) && !IsAdmin(a))
  }

  /** The operations the permission table covers. */
  datatype Operation = UpdateOp | DeleteOp | ToggleOp

  /** The permission table: update and toggle for the creator, the assignee
      or an admin; delete for the creator or an admin only. */
  predicate Permitted(op: Operation, t: Task, a: Actor) {
    match op
    case UpdateOp => t.createdBy == a.id || t.assignedTo == Some(a.id) || a.role == Admin
    case ToggleOp => t.createdBy == a.id || t.assignedTo == Some(a.id) || a.role == Admin
    case DeleteOp => t.createdBy == a.id || a.role == Admin
  }

  /** Each handler's gate is its row of the table; toggle and update agree
      everywhere, and whoever may delete may also update. */
  lemma GatesMatchTable(t: Task, a: Actor)
    ensures CanUpdate(t, a) <==> Permitted(UpdateOp, t, a)
    ensures CanToggle(t, a) <==> Permitted(ToggleOp, t, a)
    ensures CanDelete(t, a) <==> Permitted(DeleteOp, t, a)
    ensures CanToggle(t, a) == CanUpdate(t, a)
    ensures CanDelete(t, a) ==> CanUpdate(t, a)
  {
  }

  /** An assignee who is neither creator nor admin may update but not delete. */
  lemma AssigneeOnly(t: Task, a: Actor)
    requires t.assignedTo == Some(a.id) && t.createdBy != a.id && a.role != Admin
    ensures CanUpdate(t, a) && CanToggle(t, a) && !CanDelete(t, a)
  {
  }

  // ---------------------------------------------------------------------
  // getTask

  function GetTask(store: Store, id: TaskId): (r: Reply)
    ensures id !in store <==> r == TaskNotFound
    ensures id in store ==> r.status == 200 && r.success && r.data == Some(store[id])
  {
    if id !in store then TaskNotFound else Reply(200, true, "", Some(store[id]))
  }

  // ---------------------------------------------------------------------
  // createTask

  /** The body fields `createTask` reads, after validation. `createdBy` is
      whatever the client sent under that key: the handler never reads it. */
  datatype NewTask = NewTask(
    title: string,
    description: Option<string>,
    status: Option<Status>,
    priority: Option<Priority>,
    dueDate: Option<Date>,
    assignedTo: Option<UserId>,
    createdBy: Option<UserId>)

  /** `if (assignedTo)`: only a non-empty id is looked up. */
  predicate AssigneeMissing(assignee: Option<UserId>, users: set<UserId>) {
    assignee.Some? && assignee.value != "" && assignee.value !in users
  }

  /** The reply for an error passed to `next`: the error handler's output. */
  function Thrown(err: ErrorHandler.AppError): (r: Reply)
    ensures !r.success && r.data == None
  {
    var e := ErrorHandler.Handle(err);
    Reply(e.status, e.success, e.message, None)
  }

  function ValidationFailure(errs: seq<string>): ErrorHandler.AppError {
    ErrorHandler.AppError(ErrorHandler.ValidationName, "Validation error", None, errs)
  }

  /** `createTask`: an unknown assignee gives 404; otherwise the row is
      built with the acting user as creator and `pending` / `medium` as
      fallbacks, checked by the model's validators, and inserted under the
      fresh id (a clash with an existing id is a unique-constraint error). */
  function CreateTask(store: Store, users: set<UserId>, actor: Actor, f: NewTask,
                      newId: TaskId): (r: Outcome)
    ensures AssigneeMissing(f.assignedTo, users) ==> r == Outcome(store, AssigneeNotFound)
    ensures r.reply.status != 201 ==> r.store == store && !r.reply.success
    ensures r.reply.status == 201 <==>
      !AssigneeMissing(f.assignedTo, users) && TitleErrors(f.title) == [] && newId !in store
    ensures r.reply.status == 201 ==>
      && r.reply.data.Some?
      && var t := r.reply.data.value;
      && r.store == store[newId := t]
      && t.id == newId && t.createdBy == actor.id
      && t.title == f.title && t.description == f.description
      && t.dueDate == f.dueDate && t.assignedTo == f.assignedTo
      && (f.status == None ==> t.status == Pending)
      && (f.status.Some? ==> t.status == f.status.value)
      && (f.priority == None ==> t.priority == Medium)
      && (f.priority.Some? ==> t.priority == f.priority.value)
      && !t.isCompleted && t.completedAt == None
  {
    if AssigneeMissing(f.assignedTo, users) then Outcome(store, AssigneeNotFound)
    else
      var t := TaskModel.Create(newId, f.title, f.description,
                                Some(f.status.GetOr(Pending)), Some(f.priority.GetOr(Medium)),
                                f.dueDate, actor.id, f.assignedTo);
      var errs := TitleErrors(f.title);
      if errs != [] then Outcome(store, Thrown(ValidationFailure(errs)))
      else if newId in store then
        Outcome(store, Thrown(ErrorHandler.AppError(ErrorHandler.UniqueName, "Validation error", None, [])))
      else Outcome(store[newId := t], Reply(201, true, "Task created successfully", Some(t)))
  }

  /** The creator of a new task is the acting user, whatever the body says. */
  lemma CreatorIsActor(store: Store, users: set<UserId>, actor: Actor,
                                          f: NewTask, newId: TaskId, claimed: UserId)
    requires CreateTask(store, users, actor, f, newId).reply.status == 201
    ensures CreateTask(store, users, actor, f.(createdBy := Some(claimed)), newId).reply.status == 201
    ensures CreateTask(store, users, actor, f.(createdBy := Some(claimed)), newId).reply.data.value.createdBy == actor.id
  {
  }

  // ---------------------------------------------------------------------
  // updateTask

  /** The body fields `updateTask` reads; `None` is a key that is absent
      (undefined), and a nested `None` an explicit `null`. `createdBy` is
      whatever the client sent under that key: the handler ignores it. */
  datatype Changes = Changes(
    title: Option<string>,
    description: Option<Option<string>>,
    status: Option<Status>,
    priority: Option<Priority>,
    dueDate: Option<Option<Date>>,
    assignedTo: Option<Option<UserId>>,
    isCompleted: Option<bool>,
    createdBy: Option<UserId>)

  const NoChanges := Changes(None, None, None, None, None, None, None, None)

  /** `task.update(fieldsToUpdate)` before the hooks: each field that is
      present in the body is written, every other field keeps its value. */
  function ApplyChanges(t: Task, ch: Changes): (r: Task)
    ensures r.id == t.id && r.createdBy == t.createdBy && r.completedAt == t.completedAt
    ensures ch.title == None ==> r.title == t.title
    ensures ch.title.Some? ==> r.title == ch.title.value
    ensures ch.description == None ==> r.description == t.description
    ensures ch.description.Some? ==> r.description == ch.description.value
    ensures ch.status == None ==> r.status == t.status
    ensures ch.status.Some? ==> r.status == ch.status.value
    ensures ch.priority == None ==> r.priority == t.priority
    ensures ch.priority.Some? ==> r.priority == ch.priority.value
    ensures ch.dueDate == None ==> r.dueDate == t.dueDate
    ensures ch.dueDate.Some? ==> r.dueDate == ch.dueDate.value
    ensures ch.assignedTo == None ==> r.assignedTo == t.assignedTo
    ensures ch.assignedTo.Some? ==> r.assignedTo == ch.assignedTo.value
    ensures ch.isCompleted == None ==> r.isCompleted == t.isCompleted
    ensures ch.isCompleted.Some? ==> r.isCompleted == ch.isCompleted.value
  {
    Task(t.id,
         ch.title.GetOr(t.title),
         ch.description.GetOr(t.description),
         ch.status.GetOr(t.status),
         ch.priority.GetOr(t.priority),
         ch.dueDate.GetOr(t.dueDate),
         ch.isCompleted.GetOr(t.isCompleted),
         t.completedAt,
         t.createdBy,
         ch.assignedTo.GetOr(t.assignedTo))
  }

  /** The model validators run on changed fields only; of the task's
      columns only `title` has validators. A title that is absent, or equal
      to the stored one, is not validated at all. */
  function ChangedTitleErrors(t: Task, ch: Changes): (errs: seq<string>)
    ensures ch.title == None || ch.title == Some(t.title) ==> errs == []
    ensures ch.title.Some? && ch.title.value != t.title ==>
      errs == TitleErrors(ch.title.value)
  {
    if ch.title.Some? && ch.title.value != t.title then TitleErrors(ch.title.value) else []
  }

  /** The checks `updateTask` makes before writing, in order: 404 for an
      unknown id, the permission gate (403), the assignee lookup (404), then
      validation. `None` when every check passes. */
  function UpdateRefusal(store: Store, users: set<UserId>, id: TaskId, actor: Actor,
                         ch: Changes): Option<Reply>
  {
    if id !in store then Some(TaskNotFound)
    else if !CanUpdate(store[id], actor) then Some(UpdateForbidden)
    else if ch.assignedTo.Some? && AssigneeMissing(ch.assignedTo.value, users) then Some(AssigneeNotFound)
    else
      var errs := ChangedTitleErrors(store[id], ch);
      if errs != [] then Some(Thrown(ValidationFailure(errs))) else None
  }

  /** `updateTask` as written. Sequelize's instance `update` saves only the
      attributes it is given, and unlike a bare `save()` it does not add the
      ones a `beforeUpdate` hook assigns; so the hook's `status` and
      `completedAt` never reach the row, and the task fetched again
      afterwards is the body merged into the stored task. Every refusal
      leaves the store as it was. */
  function UpdateTask(store: Store, users: set<UserId>, id: TaskId, actor: Actor,
                      ch: Changes, now: Date): (r: Outcome)
    ensures id !in store ==> r == Outcome(store, TaskNotFound)
    ensures id in store && !CanUpdate(store[id], actor) ==> r == Outcome(store, UpdateForbidden)
    ensures (id in store && CanUpdate(store[id], actor) && ch.assignedTo.Some?
             && AssigneeMissing(ch.assignedTo.value, users)) ==> r == Outcome(store, AssigneeNotFound)
    ensures r.reply.status != 200 ==> r.store == store && !r.reply.success
    ensures r.reply.status == 200 <==>
      && id in store && CanUpdate(store[id], actor)
      && !(ch.assignedTo.Some? && AssigneeMissing(ch.assignedTo.value, users))
      && ChangedTitleErrors(store[id], ch) == []
    ensures r.reply.status == 200 ==>
      && r.reply.data == Some(ApplyChanges(store[id], ch))
      && r.store == store[id := r.reply.data.value]
      && r.store[id].completedAt == store[id].completedAt
  {
    match UpdateRefusal(store, users, id, actor, ch)
    case Some(reply) => Outcome(store, reply)
    case None =>
      var row := ApplyChanges(store[id], ch);
      Outcome(store[id := row], Reply(200, true, "Task updated successfully", Some(row)))
  }

  /** `updateTask` with the write the `beforeUpdate` hook is there for: the
      status and completion time it assigns are saved with the body, as they
      are on the toggle path. */
  function UpdateTaskWithHook(store: Store, users: set<UserId>, id: TaskId, actor: Actor,
                              ch: Changes, now: Date): (r: Outcome)
    ensures id !in store ==> r == Outcome(store, TaskNotFound)
    ensures id in store && !CanUpdate(store[id], actor) ==> r == Outcome(store, UpdateForbidden)
    ensures (id in store && CanUpdate(store[id], actor) && ch.assignedTo.Some?
             && AssigneeMissing(ch.assignedTo.value, users)) ==> r == Outcome(store, AssigneeNotFound)
    ensures r.reply.status != 200 ==> r.store == store && !r.reply.success
    ensures r.reply.status == 200 <==>
      && id in store && CanUpdate(store[id], actor)
      && !(ch.assignedTo.Some? && AssigneeMissing(ch.assignedTo.value, users))
      && ChangedTitleErrors(store[id], ch) == []
    ensures r.reply.status == 200 ==>
      && r.reply.data == Some(TaskModel.BeforeUpdate(store[id], ApplyChanges(store[id], ch), now))
      && r.store == store[id := r.reply.data.value]
  {
    match UpdateRefusal(store, users, id, actor, ch)
    case Some(reply) => Outcome(store, reply)
    case None =>
      var row := TaskModel.BeforeUpdate(store[id], ApplyChanges(store[id], ch), now);
      Outcome(store[id := row], Reply(200, true, "Task updated successfully", Some(row)))
  }

  /** The two writes differ only in the row: the same requests are refused,
      with the same replies, and a write that does not flip the flag stores
      the same row either way. */
  lemma UpdatesDifferOnlyInRow(store: Store, users: set<UserId>, id: TaskId, actor: Actor,
                               ch: Changes, now: Date)
    ensures var a := UpdateTask(store, users, id, actor, ch, now);
      var h := UpdateTaskWithHook(store, users, id, actor, ch, now);
      && (a.reply.status == 200 <==> h.reply.status == 200)
      && (a.reply.status != 200 ==> a == h)
      && ((a.reply.status == 200
           && (ch.isCompleted == None || ch.isCompleted == Some(store[id].isCompleted))) ==> a == h)
  {
  }

  /** As written, completing a task through `updateTask` stores the flag
      without a completion time (and with its old status), so the stored
      task breaks the flag/time agreement that the toggle path keeps. */
  lemma UpdateCompletionLosesTime(store: Store, users: set<UserId>, id: TaskId, actor: Actor, now: Date)
    requires id in store && CanUpdate(store[id], actor)
    requires !store[id].isCompleted && TimestampCoherent(store[id])
    ensures var r := UpdateTask(store, users, id, actor, NoChanges.(isCompleted := Some(true)), now);
      && r.reply.status == 200
      && r.store[id].isCompleted && r.store[id].completedAt == None
      && r.store[id].status == store[id].status
      && !TimestampCoherent(r.store[id]) && !StoreInvariant(r.store)
      && r.store != ToggleTaskCompletion(store, id, actor, now).store
  {
    var r := UpdateTask(store, users, id, actor, NoChanges.(isCompleted := Some(true)), now);
    var tg := ToggleTaskCompletion(store, id, actor, now);
    assert tg.store[id].completedAt == Some(now);
    assert r.store[id] != tg.store[id];
  }

  /** A successful hooked update changes only the fields present in the
      body, plus `status` and `completedAt` when the completion flag flips; the id and
      the creator never change, and neither does any other task. */
  lemma UpdateFrame(store: Store, users: set<UserId>, id: TaskId, actor: Actor,
                                       ch: Changes, now: Date)
    requires UpdateTaskWithHook(store, users, id, actor, ch, now).reply.status == 200
    ensures var t := store[id];
      var u := UpdateTaskWithHook(store, users, id, actor, ch, now).store[id];
      && u.id == t.id && u.createdBy == t.createdBy
      && (ch.title == None ==> u.title == t.title)
      && (ch.description == None ==> u.description == t.description)
      && (ch.priority == None ==> u.priority == t.priority)
      && (ch.dueDate == None ==> u.dueDate == t.dueDate)
      && (ch.assignedTo == None ==> u.assignedTo == t.assignedTo)
      && (ch.isCompleted == None ==> u.isCompleted == t.isCompleted)
      && (u.isCompleted == t.isCompleted ==>
            u.completedAt == t.completedAt && (ch.status == None ==> u.status == t.status))
    ensures forall k :: k in store && k != id ==>
      UpdateTaskWithHook(store, users, id, actor, ch, now).store[k] == store[k]
    ensures UpdateTaskWithHook(store, users, id, actor, ch, now).store.Keys == store.Keys
  {
    var t := store[id];
    var m := ApplyChanges(t, ch);
    var u := TaskModel.BeforeUpdate(t, m, now);
    assert UpdateTaskWithHook(store, users, id, actor, ch, now).store == store[id := u];
  }

  /** An update with an empty body, by anyone allowed to make it, leaves
      the task exactly as it was. */
  lemma EmptyUpdateIsIdentity(store: Store, users: set<UserId>, id: TaskId,
                                                 actor: Actor, now: Date)
    requires id in store && CanUpdate(store[id], actor)
    ensures UpdateTask(store, users, id, actor, NoChanges, now) ==
      Outcome(store, Reply(200, true, "Task updated successfully", Some(store[id])))
  {
    var t := store[id];
    assert ApplyChanges(t, NoChanges) == t;
    assert store[id := t] == store;
  }

  /** A `null` assignee is not looked up, and is written. */
  lemma NullAssigneeIsWritten(store: Store, users: set<UserId>, id: TaskId,
                                                 actor: Actor, now: Date)
    requires id in store && CanUpdate(store[id], actor)
    ensures var r := UpdateTask(store, users, id, actor, NoChanges.(assignedTo := Some(None)), now);
      r.reply.status == 200 && r.store[id].assignedTo == None
  {
  }

  /** Completing a task through the hooked update sets status `completed`
      and the completion time, even when the same body asks for another
      status. */
  lemma CompletionOverridesStatus(store: Store, users: set<UserId>, id: TaskId,
                                                     actor: Actor, s: Status, now: Date)
    requires id in store && CanUpdate(store[id], actor) && !store[id].isCompleted
    ensures var r := UpdateTaskWithHook(store, users, id, actor,
                                NoChanges.(isCompleted := Some(true), status := Some(s)), now);
      r.reply.status == 200 && r.store[id].status == Completed && r.store[id].completedAt == Some(now)
  {
  }

  /** Unlike the completion time, `status` is not tied to the flag: an
      update that only sets a status leaves a completed task completed with
      status `pending`. */
  lemma StatusCanDivergeFromFlag(store: Store, users: set<UserId>, id: TaskId,
                                                    actor: Actor, now: Date)
    requires id in store && CanUpdate(store[id], actor) && store[id].isCompleted
    ensures var r := UpdateTask(store, users, id, actor, NoChanges.(status := Some(Pending)), now);
      r.reply.status == 200 && r.store[id].isCompleted && r.store[id].status == Pending
  {
  }

  // ---------------------------------------------------------------------
  // deleteTask

  /** `deleteTask`: 404, then the creator-or-admin gate (403), then removal. */
  function DeleteTask(store: Store, id: TaskId, actor: Actor): (r: Outcome)
    ensures id !in store ==> r == Outcome(store, TaskNotFound)
    ensures id in store && !CanDelete(store[id], actor) ==> r == Outcome(store, DeleteForbidden)
    ensures r.reply.status == 200 <==> id in store && CanDelete(store[id], actor)
    ensures r.reply.status == 200 ==> r.store.Keys == store.Keys - {id} && r.reply.success
    ensures forall k :: k in r.store ==> k in store && r.store[k] == store[k]
  {
    if id !in store then Outcome(store, TaskNotFound)
    else if store[id].createdBy != actor.id && actor.role != Admin then Outcome(store, DeleteForbidden)
    else Outcome(store - {id}, Reply(200, true, "Task deleted successfully", None))
  }

  // ---------------------------------------------------------------------
  // toggleTaskCompletion

  /** `task.isCompleted = !task.isCompleted; task.save()`, through the hook. */
  function Flip(t: Task, now: Date): (r: Task)
    ensures r.isCompleted != t.isCompleted
    ensures r.isCompleted ==> r.status == Completed && r.completedAt == Some(now)
    ensures !r.isCompleted ==> r.status == t.status && r.completedAt == None
    ensures r.(isCompleted := t.isCompleted, status := t.status, completedAt := t.completedAt) == t
  {
    TaskModel.BeforeUpdate(t, t.(isCompleted := !t.isCompleted), now)
  }

  /** `toggleTaskCompletion`: 404, then the update gate (403), then the flip. */
  function ToggleTaskCompletion(store: Store, id: TaskId, actor: Actor, now: Date): (r: Outcome)
    ensures id !in store ==> r == Outcome(store, TaskNotFound)
    ensures id in store && !CanToggle(store[id], actor) ==> r == Outcome(store, ToggleForbidden)
    ensures r.reply.status == 200 <==> id in store && CanToggle(store[id], actor)
    ensures r.reply.status != 200 ==> r.store == store
    ensures r.reply.status == 200 ==>
      && r.reply.data == Some(Flip(store[id], now))
      && r.store == store[id := Flip(store[id], now)]
      && r.reply.message == (if Flip(store[id], now).isCompleted
                             then "Task marked as completed" else "Task marked as incomplete")
  {
    if id !in store then Outcome(store, TaskNotFound)
    else
      var task := store[id];
      if !CanToggle(task, actor) then Outcome(store, ToggleForbidden)
      else
        var saved := Flip(task, now);
        Outcome(store[id := saved],
                Reply(200, true,
                      "Task marked as " + (if saved.isCompleted then "completed" else "incomplete"),
                      Some(saved)))
  }

  /** Toggling is a hooked update whose only field is the negated flag: both
      paths leave the same store and return the same task. */
  lemma ToggleIsUpdate(store: Store, users: set<UserId>, id: TaskId,
                                          actor: Actor, now: Date)
    requires id in store
    ensures var tg := ToggleTaskCompletion(store, id, actor, now);
      var up := UpdateTaskWithHook(store, users, id, actor,
                           NoChanges.(isCompleted := Some(!store[id].isCompleted)), now);
      && tg.store == up.store && tg.reply.data == up.reply.data
      && (tg.reply.status == 200 <==> up.reply.status == 200)
  {
    var t := store[id];
    assert ApplyChanges(t, NoChanges.(isCompleted := Some(!t.isCompleted))) == t.(isCompleted := !t.isCompleted);
  }

  /** Completing and then reopening an incomplete task leaves it incomplete
      with no completion time but with status `completed`: reopening does
      not restore the earlier status. */
  lemma ToggleTwice(store: Store, id: TaskId, actor: Actor, now1: Date, now2: Date)
    requires id in store && CanToggle(store[id], actor)
    requires !store[id].isCompleted && TimestampCoherent(store[id])
    ensures var s1 := ToggleTaskCompletion(store, id, actor, now1).store;
      var s2 := ToggleTaskCompletion(s1, id, actor, now2).store;
      && !s2[id].isCompleted && s2[id].completedAt == None && s2[id].status == Completed
      && s2[id].(status := store[id].status) == store[id]
  {
    var s1 := ToggleTaskCompletion(store, id, actor, now1).store;
    assert s1[id].createdBy == store[id].createdBy && s1[id].assignedTo == store[id].assignedTo;
    assert CanToggle(s1[id], actor);
  }

  /** Every handler keeps the store invariant. */
  lemma CreateKeepsInvariant(store: Store, users: set<UserId>, actor: Actor,
                                                f: NewTask, newId: TaskId)
    requires StoreInvariant(store)
    ensures StoreInvariant(CreateTask(store, users, actor, f, newId).store)
  {
  }

  lemma UpdateKeepsInvariant(store: Store, users: set<UserId>, id: TaskId,
                                                actor: Actor, ch: Changes, now: Date)
    requires StoreInvariant(store)
    ensures StoreInvariant(UpdateTaskWithHook(store, users, id, actor, ch, now).store)
  {
    if id in store {
      var t := store[id];
      HookKeepsCoherence(t, ApplyChanges(t, ch), now);
    }
  }

  lemma DeleteKeepsInvariant(store: Store, id: TaskId, actor: Actor)
    requires StoreInvariant(store)
    ensures StoreInvariant(DeleteTask(store, id, actor).store)
  {
  }

  lemma ToggleKeepsInvariant(store: Store, id: TaskId, actor: Actor, now: Date)
    requires StoreInvariant(store)
    ensures StoreInvariant(ToggleTaskCompletion(store, id, actor, now).store)
  {
  }
}

=== FILE: task_filters.dfy ===
/** The filter bar's state: one optional text per filter key, the update a
    control makes, the Clear button and when it shows, and the listing
    query the filters become. */
module TaskFilters {
  import opened Js
  import TaskQueries

  /** The keys of the filter record. */
  datatype FilterKey = StatusKey | PriorityKey | IsCompletedKey | AssignedToKey | SearchKey

  /** The filter record; `None` is a key that is absent or `undefined`. */
  datatype Filters = Filters(
    status: Option<string>,
    priority: Option<string>,
    isCompleted: Option<string>,
    assignedTo: Option<string>,
    search: Option<string>)

  const NoFilters := Filters(None, None, None, None, None)

  function Get(f: Filters, k: FilterKey): Option<string> {
    match k
    case StatusKey => f.status
    case PriorityKey => f.priority
    case IsCompletedKey => f.isCompleted
    case AssignedToKey => f.assignedTo
    case SearchKey => f.search
  }

  /** `{ ...filters, [key]: value || undefined }`: the chosen key gets the
      value, or is cleared when the value is empty; every other key keeps
      its value. */
  function HandleChange(f: Filters, k: FilterKey, value: string): (r: Filters)
    ensures Get(r, k) == (if value == "" then None else Some(value))
    ensures forall j :: j != k ==> Get(r, j) == Get(f, j)
  {
    var v := if value == "" then None else Some(value);
    match k
    case StatusKey => f.(status := v)
    case PriorityKey => f.(priority := v)
    case IsCompletedKey => f.(isCompleted := v)
    case AssignedToKey => f.(assignedTo := v)
    case SearchKey => f.(search := v)
  }

  /** Two records with the same value under every key are the same record. */
  lemma SameValuesSameFilters(f: Filters, g: Filters)
    requires forall k :: Get(f, k) == Get(g, k)
    ensures f == g
  {
    assert Get(f, StatusKey) == Get(g, StatusKey);
    assert Get(f, PriorityKey) == Get(g, PriorityKey);
    assert Get(f, IsCompletedKey) == Get(g, IsCompletedKey);
    assert Get(f, AssignedToKey) == Get(g, AssignedToKey);
    assert Get(f, SearchKey) == Get(g, SearchKey);
  }

  /** Choosing the same value twice is the same as choosing it once. */
  lemma HandleChangeIdempotent(f: Filters, k: FilterKey, value: string)
    ensures HandleChange(HandleChange(f, k, value), k, value) == HandleChange(f, k, value)
  {
    var once := HandleChange(f, k, value);
    SameValuesSameFilters(HandleChange(once, k, value), once);
  }

  /** Changes to two different keys commute. */
  lemma HandleChangeCommutes(f: Filters, k: FilterKey, v: string, j: FilterKey, w: string)
    requires k != j
    ensures HandleChange(HandleChange(f, k, v), j, w) == HandleChange(HandleChange(f, j, w), k, v)
  {
    SameValuesSameFilters(HandleChange(HandleChange(f, k, v), j, w), HandleChange(HandleChange(f, j, w), k, v));
  }

  /** The Clear button: `onFilterChange({})`. */
  function Clear(f: Filters): (r: Filters)
    ensures forall k :: Get(r, k) == None
  {
    NoFilters
  }

  /** `Object.values(filters).some(v => v)`: the Clear button shows when
      some filter holds a non-empty text. */
  predicate ClearVisible(f: Filters) {
    exists k :: Get(f, k).Some? && Get(f, k).value != ""
  }

  /** No key holds the empty string; `HandleChange` never stores one. */
  predicate NoEmptyValues(f: Filters) {
    forall k :: Get(f, k) != Some("")
  }

  lemma HandleChangeKeepsNoEmpty(f: Filters, k: FilterKey, value: string)
    requires NoEmptyValues(f)
    ensures NoEmptyValues(HandleChange(f, k, value))
  {
  }

  /** For records built by the controls, the Clear button shows exactly
      when some filter is set, and never right after clearing. */
  lemma ClearVisibleIffFiltered(f: Filters)
    requires NoEmptyValues(f)
    ensures ClearVisible(f) <==> f != NoFilters
    ensures !ClearVisible(Clear(f))
  {
    if f != NoFilters {
      if f.status.Some? { assert Get(f, StatusKey).Some?; }
      else if f.priority.Some? { assert Get(f, PriorityKey).Some?; }
      else if f.isCompleted.Some? { assert Get(f, IsCompletedKey).Some?; }
      else if f.assignedTo.Some? { assert Get(f, AssignedToKey).Some?; }
      else { assert Get(f, SearchKey).Some?; }
    }
  }

  /** `if (value) params.append(key, value)`: a filter value is sent only
      when it is a non-empty text. */
  function Sent(v: Option<string>): (r: Option<string>)
    ensures r == None <==> v == None || v == Some("")
    ensures r.Some? ==> r == v
  {
    if v == Some("") then None else v
  }

  /** The listing query the filters are sent as: each key that holds a
      non-empty text; there is no creator filter on this page. */
  function ToQuery(f: Filters): (q: TaskQueries.Query)
    ensures q.createdBy == None
    ensures q.status == Sent(Get(f, StatusKey)) && q.priority == Sent(Get(f, PriorityKey))
    ensures q.isCompleted == Sent(Get(f, IsCompletedKey)) && q.assignedTo == Sent(Get(f, AssignedToKey))
    ensures q.search == Sent(Get(f, SearchKey))
  {
    TaskQueries.Query(Sent(f.status), Sent(f.priority), Sent(f.isCompleted), Sent(f.assignedTo), None, Sent(f.search))
  }

  /** For records built by the controls, the query carries every filter
      key for key. */
  lemma ToQueryKeyForKey(f: Filters)
    requires NoEmptyValues(f)
    ensures ToQuery(f) == TaskQueries.Query(f.status, f.priority, f.isCompleted, f.assignedTo, None, f.search)
  {
  }

  /** For every record, the Clear button shows exactly when the listing
      request carries some filter. */
  lemma ClearVisibleIffSent(f: Filters)
    ensures ClearVisible(f) <==> ToQuery(f) != TaskQueries.NoQuery
  {
  }

  /** After Clear the page asks for, and gets, every task. */
  lemma ClearListsAll(f: Filters, store: TaskQueries.Store, db: TaskQueries.Db)
    ensures TaskQueries.GetAllTasksEscaped(store, ToQuery(Clear(f)), db) == TaskQueries.Answered(store)
  {
    assert ToQuery(Clear(f)) == TaskQueries.NoQuery;
    TaskQueries.NoFiltersListsAll(store, db);
  }
}

=== FILE: task_model.dfy ===
/** The `Task` model: its fields and their enumerations, the defaults
    `Task.create` fills in, the column validators on `title`, and the
    `beforeUpdate` hook that couples the completion flag to `status` and
    `completedAt`. */
module TaskModel {
  import opened Js
  import opened Strings

  type TaskId = string
  type UserId = string
  /** A point in time, in milliseconds; the clock itself is a parameter. */
  type Date = int

  datatype Status = Pending | InProgress | Completed
  datatype Priority = Low | Medium | High

  /** The ENUM spelling of a status. */
  function StatusName(s: Status): string {
    match s
    case Pending => "pending"
    case InProgress => "in-progress"
    case Completed => "completed"
  }

  function ParseStatus(name: string): (r: Option<Status>)
    ensures r.Some? ==> StatusName(r.value) == name
  {
    if name == "pending" then Some(Pending)
    else if name == "in-progress" then Some(InProgress)
    else if name == "completed" then Some(Completed)
    else None
  }

  /** The ENUM spelling of a priority. */
  function PriorityName(p: Priority): string {
    match p
    case Low => "low"
    case Medium => "medium"
    case High => "high"
  }

  function ParsePriority(name: string): (r: Option<Priority>)
    ensures r.Some? ==> PriorityName(r.value) == name
  {
    if name == "low" then Some(Low)
    else if name == "medium" then Some(Medium)
    else if name == "high" then Some(High)
    else None
  }

  /** Parsing inverts spelling, so the two enumerations are exactly their
      three names each. */
  lemma EnumNamesRoundTrip(s: Status, p: Priority)
    ensures ParseStatus(StatusName(s)) == Some(s)
    ensures ParsePriority(PriorityName(p)) == Some(p)
    ensures StatusName(s) in {"pending", "in-progress", "completed"}
    ensures PriorityName(p) in {"low", "medium", "high"}
  {
  }

  /** A stored task. `None` stands for a SQL `NULL`. */
  datatype Task = Task(
    id: TaskId,
    title: string,
    description: Option<string>,
    status: Status,
    priority: Priority,
    dueDate: Option<Date>,
    isCompleted: bool,
    completedAt: Option<Date>,
    createdBy: UserId,
    assignedTo: Option<UserId>)

  /** `Task.create` with the column defaults: a status or priority that is
      not given becomes `pending` / `medium`, and every new task starts
      incomplete with no completion time (the lifecycle hook runs on update
      only). */
  function Create(id: TaskId, title: string, description: Option<string>,
                  status: Option<Status>, priority: Option<Priority>,
                  dueDate: Option<Date>, createdBy: UserId,
                  assignedTo: Option<UserId>): (t: Task)
    ensures t.id == id && t.title == title && t.description == description
    ensures t.dueDate == dueDate && t.createdBy == createdBy && t.assignedTo == assignedTo
    ensures status == None ==> t.status == Pending
    ensures status.Some? ==> t.status == status.value
    ensures priority == None ==> t.priority == Medium
    ensures priority.Some? ==> t.priority == priority.value
    ensures !t.isCompleted && t.completedAt == None
  {
    Task(id, title, description, status.GetOr(Pending), priority.GetOr(Medium),
         dueDate, false, None, createdBy, assignedTo)
  }

  const TitleRequired := "Title is required"
  const TitleLength := "Title must be between 3 and 200 characters"

  /** The `title` column validators, in declaration order: `notEmpty`
      (which treats an all-white-space string as empty) and `len: [3, 200]`.
      Every failing validator contributes its message. */
  function TitleErrors(title: string): (errs: seq<string>)
    ensures errs == [] <==> !AllSpace(title) && 3 <= |title| <= 200
    ensures |errs| <= 2
    ensures forall e :: e in errs ==> e == TitleRequired || e == TitleLength
    ensures title == "" ==> errs == [TitleRequired, TitleLength]
  {
    (if AllSpace(title) then [TitleRequired] else [])
    + (if 3 <= |title| <= 200 then [] else [TitleLength])
  }

  /** The completion flag and the completion time agree. Every task the
      controller stores keeps this; the same is not true of `status`. */
  predicate TimestampCoherent(t: Task) {
    t.isCompleted <==> t.completedAt.Some?
  }

  /** The `beforeUpdate` hook. `prev` is the stored row, `next` the row
      after the pending assignments; `isCompleted` counts as changed when
      the two differ. Marking a task complete forces status `completed` and
      stamps `now`; reopening it clears the time and keeps the status. */
  function BeforeUpdate(prev: Task, next: Task, now: Date): (r: Task)
    ensures r.(status := next.status, completedAt := next.completedAt) == next
    ensures next.isCompleted == prev.isCompleted ==> r == next
    ensures !prev.isCompleted && next.isCompleted ==>
      r.status == Completed && r.completedAt == Some(now)
    ensures prev.isCompleted && !next.isCompleted ==>
      r.status == next.status && r.completedAt == None
    ensures next.isCompleted != prev.isCompleted ==> TimestampCoherent(r)
  {
    var changed := next.isCompleted != prev.isCompleted;
    if changed && next.isCompleted then
      next.(completedAt := Some(now), status := Completed)
    else if changed && !next.isCompleted then
      next.(completedAt := None)
    else
      next
  }

  /** An update that does not touch `completedAt` keeps a coherent task
      coherent, whether or not it flips the flag. */
  lemma HookKeepsCoherence(prev: Task, next: Task, now: Date)
    requires TimestampCoherent(prev)
    requires next.completedAt == prev.completedAt
    ensures TimestampCoherent(BeforeUpdate(prev, next, now))
  {
  }

  /** A freshly created task is coherent. */
  lemma CreateIsCoherent(id: TaskId, title: string, description: Option<string>,
                         status: Option<Status>, priority: Option<Priority>,
                         dueDate: Option<Date>, createdBy: UserId,
                         assignedTo: Option<UserId>)
    ensures TimestampCoherent(Create(id, title, description, status, priority,
                                     dueDate, createdBy, assignedTo))
  {
  }
}

=== FILE: task_queries.dfy ===
/** The controller's two read-many handlers: `getAllTasks` (the filter
    predicate; ordering is left to the database) and `getTaskStats` (the
    visibility scope and the four counts). */
module TaskQueries {
  import opened Js
  import opened Strings
  import opened TaskModel
  import opened UserModel
  import opened Like
  import ErrorHandler
  import TaskController

  type Store = TaskController.Store

  /** The query-string parameters `getAllTasks` reads; `None` is a missing key. */
  datatype Query = Query(
    status: Option<string>,
    priority: Option<string>,
    isCompleted: Option<string>,
    assignedTo: Option<string>,
    createdBy: Option<string>,
    search: Option<string>)

  const NoQuery := Query(None, None, None, None, None, None)

  /** `if (param)`: present and not the empty string. */
  predicate Given(v: Option<string>) {
    v.Some? && v.value != ""
  }

  /** What the database brings to a query: the case folding its collation
      applies in `ILIKE`, character by character, and the reading of a text
      as a `uuid` value, which yields the canonical text of the id (the form
      stored ids have) or fails. */
  datatype Db = Db(fold: char -> char, parseUuid: string -> Option<UserId>)

  /** A result the database either answers or refuses with an error, which
      the error handler turns into the reply. */
  datatype Answer<T> = Answered(value: T) | Rejected(reply: TaskController.Reply)

  /** The reply for a query PostgreSQL refuses: a `SequelizeDatabaseError`
      through the error handler. */
  function DatabaseFailure(): (r: TaskController.Reply)
    ensures r.status == 400 && !r.success && r.message == "Database error occurred"
  {
    var err := ErrorHandler.AppError(ErrorHandler.DatabaseName, "invalid input value", None, []);
    ErrorHandler.KnownErrorTable(err);
    TaskController.Thrown(err)
  }

  /** The `whereClause` object: one optional condition per filter. */
  datatype Where = Where(
    status: Option<string>,
    priority: Option<string>,
    isCompleted: Option<bool>,
    assignedTo: Option<string>,
    createdBy: Option<string>,
    search: Option<string>)

  /** Builds the where clause: a truthy parameter adds its equality test;
      `isCompleted`, whenever present, tests the flag against the text being
      exactly `"true"`; a truthy `search` adds the text search. */
  function BuildWhere(q: Query): (w: Where)
    ensures w.isCompleted.Some? <==> q.isCompleted.Some?
    ensures q.isCompleted.Some? ==> (w.isCompleted.value <==> q.isCompleted.value == "true")
    ensures w.status.Some? <==> Given(q.status)
    ensures w.assignedTo.Some? <==> Given(q.assignedTo)
    ensures w.search.Some? <==> Given(q.search)
  {
    Where(
      if Given(q.status) then q.status else None,
      if Given(q.priority) then q.priority else None,
      if q.isCompleted.Some? then Some(q.isCompleted.value == "true") else None,
      if Given(q.assignedTo) then q.assignedTo else None,
      if Given(q.createdBy) then q.createdBy else None,
      if Given(q.search) then q.search else None)
  }

  /** PostgreSQL refuses the query when a compared value is not a value of
      its column's type: a status or priority outside the enumeration, or an
      assignee or creator that is not a `uuid`. */
  predicate Malformed(w: Where, db: Db) {
    || (w.status.Some? && ParseStatus(w.status.value).None?)
    || (w.priority.Some? && ParsePriority(w.priority.value).None?)
    || (w.assignedTo.Some? && db.parseUuid(w.assignedTo.value).None?)
    || (w.createdBy.Some? && db.parseUuid(w.createdBy.value).None?)
  }

  /** The text search as written: `title ILIKE '%s%' OR description ILIKE
      '%s%'`, with the search text pasted into the pattern unescaped. A
      `NULL` description matches nothing. */
  predicate SearchAsWritten(t: Task, s: string, fold: char -> char) {
    var p := "%" + s + "%";
    ILike(t.title, p, fold) || (t.description.Some? && ILike(t.description.value, p, fold))
  }

  /** The same search with the text escaped, so that it is matched literally. */
  predicate SearchEscaped(t: Task, s: string, fold: char -> char) {
    var p := "%" + EscapeLike(s) + "%";
    ILike(t.title, p, fold) || (t.description.Some? && ILike(t.description.value, p, fold))
  }

  /** A task meets a where clause: every condition present holds; `search`
      is evaluated literally when `escaped`, as written otherwise. */
  predicate Satisfies(t: Task, w: Where, db: Db, escaped: bool) {
    && (w.status.Some? ==> StatusName(t.status) == w.status.value)
    && (w.priority.Some? ==> PriorityName(t.priority) == w.priority.value)
    && (w.isCompleted.Some? ==> t.isCompleted == w.isCompleted.value)
    && (w.assignedTo.Some? ==> t.assignedTo == db.parseUuid(w.assignedTo.value))
    && (w.createdBy.Some? ==> Some(t.createdBy) == db.parseUuid(w.createdBy.value))
    && (w.search.Some? ==>
          if escaped then SearchEscaped(t, w.search.value, db.fold)
          else SearchAsWritten(t, w.search.value, db.fold))
  }

  /** The rows a where clause selects, or the database's refusal. */
  function Select(store: Store, w: Where, db: Db, escaped: bool): Answer<Store> {
    if Malformed(w, db) then Rejected(DatabaseFailure())
    else Answered(map k | k in store && Satisfies(store[k], w, db, escaped) :: store[k])
  }

  /** `getAllTasks` exactly as written, search text unescaped: a refusal for
      a value outside its column's type, otherwise the tasks of the store
      that meet the where clause. */
  function GetAllTasks(store: Store, q: Query, db: Db): (r: Answer<Store>)
    ensures r.Rejected? <==> Malformed(BuildWhere(q), db)
    ensures r.Rejected? ==> r.reply.status == 400 && r.reply.message == "Database error occurred"
    ensures r.Answered? ==> r.value.Keys <= store.Keys
    ensures r.Answered? ==> forall k :: k in r.value ==> r.value[k] == store[k]
  {
    Select(store, BuildWhere(q), db, false)
  }

  /** `getAllTasks` with the search text escaped. */
  function GetAllTasksEscaped(store: Store, q: Query, db: Db): (r: Answer<Store>)
    ensures r.Rejected? <==> Malformed(BuildWhere(q), db)
    ensures r.Rejected? ==> r.reply.status == 400 && r.reply.message == "Database error occurred"
    ensures r.Answered? ==> r.value.Keys <= store.Keys
    ensures r.Answered? ==> forall k :: k in r.value ==> r.value[k] == store[k]
    ensures Select(store, BuildWhere(q), db, false).Answered? ==> r.Answered?
  {
    Select(store, BuildWhere(q), db, true)
  }

  /** Every given filter names a value of its column's type. */
  predicate WellFormed(q: Query, db: Db) {
    && (Given(q.status) ==> ParseStatus(q.status.value).Some?)
    && (Given(q.priority) ==> ParsePriority(q.priority.value).Some?)
    && (Given(q.assignedTo) ==> db.parseUuid(q.assignedTo.value).Some?)
    && (Given(q.createdBy) ==> db.parseUuid(q.createdBy.value).Some?)
  }

  /** What the listing promises, filter by filter: the status, priority,
      assignee and creator given, the flag against "true", and a
      case-insensitive substring of title or description. */
  predicate Selected(t: Task, q: Query, db: Db) {
    && (Given(q.status) ==> ParseStatus(q.status.value) == Some(t.status))
    && (Given(q.priority) ==> ParsePriority(q.priority.value) == Some(t.priority))
    && (q.isCompleted.Some? ==> (t.isCompleted <==> q.isCompleted.value == "true"))
    && (Given(q.assignedTo) ==> t.assignedTo == db.parseUuid(q.assignedTo.value))
    && (Given(q.createdBy) ==> Some(t.createdBy) == db.parseUuid(q.createdBy.value))
    && (Given(q.search) ==>
          || Contains(Fold(t.title, db.fold), Fold(q.search.value, db.fold))
          || (t.description.Some? &&
              Contains(Fold(t.description.value, db.fold), Fold(q.search.value, db.fold))))
  }

  /** The escaped search is a case-insensitive substring test on the title
      or the description. */
  lemma SearchIsSubstring(t: Task, s: string, fold: char -> char)
    requires FoldKeepsMeta(fold)
    ensures SearchEscaped(t, s, fold) <==>
      || Contains(Fold(t.title, fold), Fold(s, fold))
      || (t.description.Some? && Contains(Fold(t.description.value, fold), Fold(s, fold)))
  {
    ILikeSubstring(t.title, s, fold);
    if t.description.Some? {
      ILikeSubstring(t.description.value, s, fold);
    }
  }

  /** The escaped listing answers exactly the well-formed queries, and then
      is the conjunction of the given filters. */
  lemma ListingIsConjunction(store: Store, q: Query, db: Db)
    requires FoldKeepsMeta(db.fold)
    ensures GetAllTasksEscaped(store, q, db).Answered? <==> WellFormed(q, db)
    ensures GetAllTasksEscaped(store, q, db).Answered? ==>
      forall k :: k in GetAllTasksEscaped(store, q, db).value <==> k in store && Selected(store[k], q, db)
  {
    forall k | k in store
      ensures Satisfies(store[k], BuildWhere(q), db, true) <==> Selected(store[k], q, db)
    {
      var t := store[k];
      EnumNamesRoundTrip(t.status, t.priority);
      if Given(q.search) {
        SearchIsSubstring(t, q.search.value, db.fold);
      }
    }
  }

  /** With no parameters the query is answered with every task. */
  lemma NoFiltersListsAll(store: Store, db: Db)
    ensures GetAllTasksEscaped(store, NoQuery, db) == Answered(store)
    ensures GetAllTasks(store, NoQuery, db) == Answered(store)
  {
    var w := BuildWhere(NoQuery);
    assert w == Where(None, None, None, None, None, None);
    assert forall k :: k in store ==> Satisfies(store[k], w, db, true) && Satisfies(store[k], w, db, false);
    assert (map k | k in store && Satisfies(store[k], w, db, true) :: store[k]) == store;
    assert (map k | k in store && Satisfies(store[k], w, db, false) :: store[k]) == store;
  }

  /** Any `isCompleted` text other than "true" selects the incomplete tasks. */
  lemma IsCompletedTextFilter(store: Store, text: string, db: Db)
    requires text != "true"
    ensures GetAllTasks(store, NoQuery.(isCompleted := Some(text)), db).Answered?
    ensures forall k :: k in GetAllTasks(store, NoQuery.(isCompleted := Some(text)), db).value <==>
      k in store && !store[k].isCompleted
  {
  }

  /** For a search text without `%`, `_` or `\` the code as written and the
      escaped search give the same answer. */
  lemma PlainSearchUnaffected(store: Store, q: Query, db: Db)
    requires q.search.Some? ==> MetaFree(q.search.value)
    ensures GetAllTasks(store, q, db) == GetAllTasksEscaped(store, q, db)
  {
    var w := BuildWhere(q);
    if w.search.Some? {
      assert EscapeLike(w.search.value) == w.search.value;
    }
    assert forall k :: k in store ==> Satisfies(store[k], w, db, true) == Satisfies(store[k], w, db, false);
    assert (map k | k in store && Satisfies(store[k], w, db, true) :: store[k])
        == (map k | k in store && Satisfies(store[k], w, db, false) :: store[k]);
  }

  /** The unescaped search lets `_` match any character: under any
      collation, searching "a_c" lists a task titled "abc", which does not
      contain "a_c". */
  lemma SearchWildcardLeak(fold: char -> char)
    requires FoldKeepsMeta(fold)
    ensures var t := Task("t", "abc", None, Pending, Medium, None, false, None, "u", None);
      && SearchAsWritten(t, "a_c", fold)
      && !SearchEscaped(t, "a_c", fold)
      && !Contains(Fold(t.title, fold), Fold("a_c", fold))
  {
    var t := Task("t", "abc", None, Pending, Medium, None, false, None, "u", None);
    var a, b, c := fold('a'), fold('b'), fold('c');
    assert !IsMeta('a') && !IsMeta('b') && !IsMeta('c');
    assert !IsMeta(a) && !IsMeta(b) && !IsMeta(c);
    assert fold('%') == '%' && fold('_') == '_';
    assert "%" + "a_c" + "%" == "%a_c%";
    assert Fold("abc", fold) == [a, b, c];
    assert Fold("%a_c%", fold) == ['%', a, '_', c, '%'];
    assert Matches([], []);
    assert Matches([], ['%']);
    assert Matches([c], [c, '%']);
    assert Matches([b, c], ['_', c, '%']);
    assert Matches([a, b, c], [a, '_', c, '%']);
    assert Matches([a, b, c], ['%', a, '_', c, '%']);
    SearchIsSubstring(t, "a_c", fold);
    assert Fold("a_c", fold) == [a, '_', c];
    assert !OccursAt([a, b, c], [a, '_', c], 0);
  }

  // ---------------------------------------------------------------------
  // getTaskStats

  datatype Stats = Stats(total: nat, completed: nat, pending: nat, inProgress: nat)

  /** The four counts `getTaskStats` reports. */
  datatype Counter = TotalCount | CompletedCount | PendingCount | InProgressCount

  function Count(s: Stats, c: Counter): nat {
    match c
    case TotalCount => s.total
    case CompletedCount => s.completed
    case PendingCount => s.pending
    case InProgressCount => s.inProgress
  }

  /** The extra condition of each count. */
  predicate CountsAs(t: Task, c: Counter) {
    match c
    case TotalCount => true
    case CompletedCount => t.isCompleted
    case PendingCount => t.status == Pending
    case InProgressCount => t.status == InProgress
  }

  /** `req.query.userId || req.user.id`, read as a `uuid`. */
  function ScopeUser(actor: Actor, userId: Option<string>, db: Db): Option<UserId> {
    if Given(userId) then db.parseUuid(userId.value) else Some(actor.id)
  }

  /** The stats scope: every task for an admin, otherwise the tasks the
      scope user created or is assigned. */
  predicate InScope(t: Task, actor: Actor, user: Option<UserId>) {
    actor.role == Admin || (user.Some? && (t.createdBy == user.value || t.assignedTo == user))
  }

  /** The ids one count counts. */
  function Counted(store: Store, actor: Actor, user: Option<UserId>, c: Counter): set<TaskId> {
    set k | k in store && InScope(store[k], actor, user) && CountsAs(store[k], c)
  }

  /** `getTaskStats`: four counts over the same scope. A non-admin's scope
      user that is not a `uuid` makes the database refuse the query; an
      admin's query has no condition and is always answered. */
  function GetTaskStats(store: Store, actor: Actor, userId: Option<string>, db: Db): (r: Answer<Stats>)
    ensures r.Rejected? <==> actor.role != Admin && ScopeUser(actor, userId, db).None?
    ensures r.Rejected? ==> r.reply.status == 400 && r.reply.message == "Database error occurred"
    ensures r.Answered? ==> forall c :: Count(r.value, c) == |Counted(store, actor, ScopeUser(actor, userId, db), c)|
    ensures r.Answered? ==>
      && r.value.completed <= r.value.total && r.value.pending <= r.value.total
      && r.value.inProgress <= r.value.total && r.value.pending + r.value.inProgress <= r.value.total
    ensures actor.role == Admin ==> r.Answered? && r.value.total == |store|
  {
    var user := ScopeUser(actor, userId, db);
    if actor.role != Admin && user.None? then Rejected(DatabaseFailure())
    else
      var scope := Counted(store, actor, user, TotalCount);
      var completed := Counted(store, actor, user, CompletedCount);
      var pending := Counted(store, actor, user, PendingCount);
      var inProgress := Counted(store, actor, user, InProgressCount);
      SubsetSize(completed, scope);
      SubsetSize(pending + inProgress, scope);
      assert pending !! inProgress;
      assert actor.role == Admin ==> scope == store.Keys;
      Answered(Stats(|scope|, |completed|, |pending|, |inProgress|))
  }

  lemma {:induction false} SubsetSize<T>(a: set<T>, b: set<T>)
    requires a <= b
    ensures |a| <= |b|
    decreases |b|
  {
    if a != {} {
      var x :| x in a;
      SubsetSize(a - {x}, b - {x});
    }
  }

  /** With no tasks every count is zero. */
  lemma StatsEmpty(actor: Actor, userId: Option<string>, db: Db)
    requires GetTaskStats(map[], actor, userId, db).Answered?
    ensures GetTaskStats(map[], actor, userId, db).value == Stats(0, 0, 0, 0)
  {
    var user := ScopeUser(actor, userId, db);
    forall c ensures Counted(map[], actor, user, c) == {} {
    }
  }

  /** Adding a task raises exactly the counts it falls under, by one, and
      leaves the others; a task outside the scope changes nothing. */
  lemma StatsAdd(store: Store, actor: Actor, userId: Option<string>, db: Db, k: TaskId, t: Task)
    requires k !in store
    ensures GetTaskStats(store[k := t], actor, userId, db).Answered? == GetTaskStats(store, actor, userId, db).Answered?
    ensures GetTaskStats(store, actor, userId, db).Answered? ==>
      forall c :: Count(GetTaskStats(store[k := t], actor, userId, db).value, c) ==
        Count(GetTaskStats(store, actor, userId, db).value, c)
          + (if InScope(t, actor, ScopeUser(actor, userId, db)) && CountsAs(t, c) then 1 else 0)
  {
    var user := ScopeUser(actor, userId, db);
    forall c
      ensures |Counted(store[k := t], actor, user, c)| ==
        |Counted(store, actor, user, c)| + (if InScope(t, actor, user) && CountsAs(t, c) then 1 else 0)
    {
      CountedAdd(store, actor, user, c, k, t);
    }
  }

  lemma CountedAdd(store: Store, actor: Actor, user: Option<UserId>, c: Counter, k: TaskId, t: Task)
    requires k !in store
    ensures |Counted(store[k := t], actor, user, c)| ==
      |Counted(store, actor, user, c)| + (if InScope(t, actor, user) && CountsAs(t, c) then 1 else 0)
  {
    CountedInsert(store, actor, user, c, k, t);
    assert k !in Counted(store, actor, user, c);
  }

  /** The ids counted after an insertion: those before, and the new one if
      it counts. */
  lemma CountedInsert(store: Store, actor: Actor, user: Option<UserId>, c: Counter, k: TaskId, t: Task)
    requires k !in store
    ensures Counted(store[k := t], actor, user, c) ==
      Counted(store, actor, user, c) + (if InScope(t, actor, user) && CountsAs(t, c) then {k} else {})
  {
    var before := Counted(store, actor, user, c);
    var after := Counted(store[k := t], actor, user, c);
    var added: set<TaskId> := if InScope(t, actor, user) && CountsAs(t, c) then {k} else {};
    forall j
      ensures j in after <==> j in before + added
    {
      if j != k && j in store {
        assert store[k := t][j] == store[j];
      }
    }
  }

  /** Removing a task lowers exactly the counts it fell under, by one. */
  lemma StatsRemove(store: Store, actor: Actor, userId: Option<string>, db: Db, k: TaskId)
    requires k in store
    ensures GetTaskStats(store - {k}, actor, userId, db).Answered? == GetTaskStats(store, actor, userId, db).Answered?
    ensures GetTaskStats(store, actor, userId, db).Answered? ==>
      forall c :: Count(GetTaskStats(store, actor, userId, db).value, c) ==
        Count(GetTaskStats(store - {k}, actor, userId, db).value, c)
          + (if InScope(store[k], actor, ScopeUser(actor, userId, db)) && CountsAs(store[k], c) then 1 else 0)
  {
    var rest := store - {k};
    assert rest[k := store[k]] == store;
    StatsAdd(rest, actor, userId, db, k, store[k]);
  }

  /** A non-admin who created three tasks (one completed, two pending) and
      is assigned a fourth (in progress) sees 4 / 1 / 2 / 1; another user's
      task is not counted. */
  lemma StatsExample(db: Db)
    ensures var me := Actor("me", Member);
      var store: Store := map[
        "t1" := Task("t1", "one", None, Completed, Medium, None, true, Some(5), "me", None),
        "t2" := Task("t2", "two", None, Pending, Medium, None, false, None, "me", None),
        "t3" := Task("t3", "three", None, Pending, Low, None, false, None, "me", None),
        "t4" := Task("t4", "four", None, InProgress, High, None, false, None, "boss", Some("me")),
        "t5" := Task("t5", "five", None, Pending, High, None, false, None, "boss", None)];
      GetTaskStats(store, me, None, db) == Answered(Stats(4, 1, 2, 1))
  {
    var me := Actor("me", Member);
    var store: Store := map[
      "t1" := Task("t1", "one", None, Completed, Medium, None, true, Some(5), "me", None),
      "t2" := Task("t2", "two", None, Pending, Medium, None, false, None, "me", None),
      "t3" := Task("t3", "three", None, Pending, Low, None, false, None, "me", None),
      "t4" := Task("t4", "four", None, InProgress, High, None, false, None, "boss", Some("me")),
      "t5" := Task("t5", "five", None, Pending, High, None, false, None, "boss", None)];
    var scope := Counted(store, me, Some("me"), TotalCount);
    assert scope == {"t1", "t2", "t3", "t4"};
    assert Counted(store, me, Some("me"), CompletedCount) == {"t1"};
    assert Counted(store, me, Some("me"), PendingCount) == {"t2", "t3"};
    assert Counted(store, me, Some("me"), InProgressCount) == {"t4"};
  }
}

=== FILE: task_validator.dfy ===
/** The request validators for task creation and update: the per-field
    rules, the trimming sanitiser, and the `validate` step that turns the
    collected errors into a 400 reply or lets the request through. */
module TaskValidator {
  import opened Js
  import opened Strings
  import opened TaskModel

  /** The task fields of a JSON request body; `None` is a missing key. */
  datatype Body = Body(
    title: Option<Json>,
    description: Option<Json>,
    status: Option<Json>,
    priority: Option<Json>,
    dueDate: Option<Json>,
    assignedTo: Option<Json>,
    isCompleted: Option<Json>)

  /** One entry of the `errors` array: the offending field and its message. */
  datatype FieldError = FieldError(field: string, message: string)

  const TitleRequired := "Title is required"
  const TitleNotEmpty := "Title cannot be empty"
  const TitleLength := "Title must be between 3 and 200 characters"
  const DescriptionLength := "Description must not exceed 2000 characters"
  const StatusInvalid := "Status must be pending, in-progress, or completed"
  const PriorityInvalid := "Priority must be low, medium, or high"
  const DueDateInvalid := "Due date must be a valid date"
  const AssigneeInvalid := "Assigned user must be a valid UUID"
  const IsCompletedInvalid := "isCompleted must be a boolean"
  const IdInvalid := "Task ID must be a valid UUID"

  predicate IsHex(c: char) {
    ('0' <= c <= '9') || ('a' <= c <= 'f') || ('A' <= c <= 'F')
  }

  /** `isUUID`: 8-4-4-4-12 hexadecimal digits separated by dashes. */
  predicate IsUuid(s: string) {
    && |s| == 36
    && (forall k :: 0 <= k < 36 && k in {8, 13, 18, 23} ==> s[k] == '-')
    && (forall k :: 0 <= k < 36 && k !in {8, 13, 18, 23} ==> IsHex(s[k]))
  }

  /** `isBoolean` in its strict form. */
  predicate IsBooleanText(s: string) {
    s in {"true", "false", "1", "0"}
  }

  /** The text a trimming chain validates (and writes back): the trimmed
      string form of the value. */
  function Trimmed(v: Option<Json>): string {
    Trim(ToStr(v))
  }

  /** `body('title').trim().notEmpty().isLength({min: 3, max: 200})`, with
      `empty` the message of `notEmpty`. Both rules run, so an empty title
      reports two errors. */
  function TitleRule(v: Option<Json>, empty: string): (errs: seq<FieldError>)
    ensures errs == [] <==> 3 <= |Trimmed(v)| <= 200
    ensures forall e :: e in errs ==> e.field == "title"
  {
    TitleLengthRule(|Trimmed(v)|, empty)
  }

  /** The title chain on the length `n` of the trimmed text. */
  function TitleLengthRule(n: nat, empty: string): (errs: seq<FieldError>)
    ensures errs == [] <==> 3 <= n <= 200
    ensures forall e :: e in errs ==> e.field == "title"
  {
    if n == 0 then [FieldError("title", empty), FieldError("title", TitleLength)]
    else if 3 <= n <= 200 then []
    else [FieldError("title", TitleLength)]
  }

  function DescriptionRule(v: Option<Json>): (errs: seq<FieldError>)
    ensures errs == [] <==> v == None || |Trimmed(v)| <= 2000
  {
    if v == None || |Trimmed(v)| <= 2000 then [] else [FieldError("description", DescriptionLength)]
  }

  function StatusRule(v: Option<Json>): (errs: seq<FieldError>) {
    if v == None || ToStr(v) in {"pending", "in-progress", "completed"} then []
    else [FieldError("status", StatusInvalid)]
  }

  function PriorityRule(v: Option<Json>): (errs: seq<FieldError>) {
    if v == None || ToStr(v) in {"low", "medium", "high"} then []
    else [FieldError("priority", PriorityInvalid)]
  }

  /** `isISO8601`; the date grammar itself is the parameter `isIso8601`. */
  function DueDateRule(v: Option<Json>, isIso8601: string -> bool): (errs: seq<FieldError>) {
    if v == None || isIso8601(ToStr(v)) then [] else [FieldError("dueDate", DueDateInvalid)]
  }

  function AssignedToRule(v: Option<Json>): (errs: seq<FieldError>) {
    if v == None || IsUuid(ToStr(v)) then [] else [FieldError("assignedTo", AssigneeInvalid)]
  }

  function IsCompletedRule(v: Option<Json>): (errs: seq<FieldError>) {
    if v == None || IsBooleanText(ToStr(v)) then [] else [FieldError("isCompleted", IsCompletedInvalid)]
  }

  function IdRule(id: string): (errs: seq<FieldError>) {
    if IsUuid(id) then [] else [FieldError("id", IdInvalid)]
  }

  /** `createTaskValidator`: the title is required; every other field is
      checked only when present; `isCompleted` is not examined. */
  function CreateTaskErrors(b: Body, isIso8601: string -> bool): seq<FieldError> {
    TitleRule(b.title, TitleRequired)
    + DescriptionRule(b.description)
    + StatusRule(b.status)
    + PriorityRule(b.priority)
    + DueDateRule(b.dueDate, isIso8601)
    + AssignedToRule(b.assignedTo)
  }

  /** `updateTaskValidator`: the path id first, then every body field, each
      optional. */
  function UpdateTaskErrors(id: string, b: Body, isIso8601: string -> bool): seq<FieldError> {
    IdRule(id)
    + (if b.title == None then [] else TitleRule(b.title, TitleNotEmpty))
    + DescriptionRule(b.description)
    + StatusRule(b.status)
    + PriorityRule(b.priority)
    + DueDateRule(b.dueDate, isIso8601)
    + AssignedToRule(b.assignedTo)
    + IsCompletedRule(b.isCompleted)
  }

  /** `taskIdValidator`. */
  function TaskIdErrors(id: string): seq<FieldError> {
    IdRule(id)
  }

  /** The body the controller receives: present titles and descriptions are
      replaced by their trimmed string form; other fields pass unchanged. */
  function Sanitize(b: Body): (s: Body)
    ensures s.(title := b.title, description := b.description) == b
    ensures b.title.Some? ==> s.title == Some(JStr(Trimmed(b.title)))
    ensures b.description.Some? ==> s.description == Some(JStr(Trimmed(b.description)))
  {
    b.(title := if b.title.Some? then Some(JStr(Trimmed(b.title))) else None,
       description := if b.description.Some? then Some(JStr(Trimmed(b.description))) else None)
  }

  /** What `validate` does with the collected errors. */
  datatype Verdict =
    | Next
    | Reject(status: int, success: bool, message: string, errors: seq<FieldError>)

  /** `validate`: any error gives a 400 "Validation failed" reply listing
      every error as one `{field, message}` entry; no error calls `next()`. */
  function Validate(errs: seq<FieldError>): (v: Verdict)
    ensures v.Next? <==> errs == []
    ensures v.Reject? ==>
      v.status == 400 && !v.success && v.message == "Validation failed" && v.errors == errs
  {
    if errs == [] then Next else Reject(400, false, "Validation failed", errs)
  }

  /** The create rules, stated field by field against the model's enums. */
  predicate CreateAcceptable(b: Body, isIso8601: string -> bool) {
    && 3 <= |Trimmed(b.title)| <= 200
    && (b.description.Some? ==> |Trimmed(b.description)| <= 2000)
    && (b.status.Some? ==> ParseStatus(ToStr(b.status)).Some?)
    && (b.priority.Some? ==> ParsePriority(ToStr(b.priority)).Some?)
    && (b.dueDate.Some? ==> isIso8601(ToStr(b.dueDate)))
    && (b.assignedTo.Some? ==> IsUuid(ToStr(b.assignedTo)))
  }

  /** The update rules, stated field by field against the model's enums. */
  predicate UpdateAcceptable(id: string, b: Body, isIso8601: string -> bool) {
    && IsUuid(id)
    && (b.title.Some? ==> 3 <= |Trimmed(b.title)| <= 200)
    && (b.description.Some? ==> |Trimmed(b.description)| <= 2000)
    && (b.status.Some? ==> ParseStatus(ToStr(b.status)).Some?)
    && (b.priority.Some? ==> ParsePriority(ToStr(b.priority)).Some?)
    && (b.dueDate.Some? ==> isIso8601(ToStr(b.dueDate)))
    && (b.assignedTo.Some? ==> IsUuid(ToStr(b.assignedTo)))
    && (b.isCompleted.Some? ==> IsBooleanText(ToStr(b.isCompleted)))
  }

  lemma EnumListsAgree(s: string)
    ensures s in {"pending", "in-progress", "completed"} <==> ParseStatus(s).Some?
    ensures s in {"low", "medium", "high"} <==> ParsePriority(s).Some?
  {
  }

  /** The create validator passes a body exactly when it meets the create rules. */
  lemma CreateAcceptedIff(b: Body, isIso8601: string -> bool)
    ensures CreateTaskErrors(b, isIso8601) == [] <==> CreateAcceptable(b, isIso8601)
  {
    EnumListsAgree(ToStr(b.status));
    EnumListsAgree(ToStr(b.priority));
  }

  /** The update validator passes a body exactly when it meets the update rules. */
  lemma UpdateAcceptedIff(id: string, b: Body, isIso8601: string -> bool)
    ensures UpdateTaskErrors(id, b, isIso8601) == [] <==> UpdateAcceptable(id, b, isIso8601)
  {
    EnumListsAgree(ToStr(b.status));
    EnumListsAgree(ToStr(b.priority));
  }

  /** The create validator never looks at `isCompleted`. */
  lemma CreateIgnoresIsCompleted(b: Body, v: Option<Json>, isIso8601: string -> bool)
    ensures CreateTaskErrors(b.(isCompleted := v), isIso8601) == CreateTaskErrors(b, isIso8601)
  {
  }

  /** Only the literal booleans, the numbers 1 and 0, and the strict text
      forms of both pass as `isCompleted` on update; `null` does not. */
  lemma IsCompletedValues(v: Json)
    ensures IsCompletedRule(Some(v)) == [] <==>
      v.JBool? || (v.JNum? && (v.n == 0 || v.n == 1))
      || (v.JStr? && v.s in {"true", "false", "1", "0"})
  {
    if v.JNum? {
      var r := Decimal(v.n);
      if v.n < 0 {
        assert r[0] == '-';
      } else {
        DigitsAreDigits(v.n);
        assert IsDigit(r[0]);
        if r == "1" {
          DecimalInjective(v.n, 1);
        } else if r == "0" {
          DecimalInjective(v.n, 0);
        }
      }
    }
  }

  /** On update an empty body is accepted for any well-formed id. */
  lemma EmptyUpdateAccepted(id: string, isIso8601: string -> bool)
    requires IsUuid(id)
    ensures Validate(UpdateTaskErrors(id, Body(None, None, None, None, None, None, None), isIso8601)) == Next
  {
  }

  /** A title that passes the create validator's title chain, once
      sanitised, also passes the model's own `title` validators (non-blank,
      3 to 200 characters). */
  lemma AcceptedTitleMeetsModel(b: Body)
    requires TitleRule(b.title, TitleRequired) == []
    ensures b.title.Some? ==> Sanitize(b).title == Some(JStr(Trimmed(b.title)))
    ensures TaskModel.TitleErrors(Trimmed(b.title)) == []
  {
    var t := Trimmed(b.title);
    assert t != [] && !IsSpace(t[0]);
    assert !AllSpace(t);
  }
}

=== FILE: tasks_page.dfy ===
/** The Tasks page's handlers: the client-side permission gates in front of
    edit, delete and toggle, and the create-or-update submit with its 403
    handling. Each handler returns the page state it leaves and the API
    call it issues; the call's outcome is a parameter. Re-fetching the list
    afterwards is I/O and is not modelled. */
module TasksPage {
  import opened Js
  import opened TaskModel
  import opened UserModel
  import opened Client
  import TaskCard
  import TaskController

  /** The state the handlers touch: the loaded tasks, the modal, the task
      being edited and the alert. */
  datatype Page = Page(tasks: seq<Task>, showModal: bool, selected: Option<Task>, alert: Option<Alert>)

  const EditDenied := "You do not have permission to edit this task"
  const DeleteDenied :=
    "You do not have permission to delete this task. Only the creator or admin can delete tasks."
  const ToggleDenied :=
    "You do not have permission to update this task. Only the creator, assignee, or admin can change task status."

  /** `isCreator || isAssignee || isAdmin` with `user?.id` and `user?.role`. */
  predicate MayChange(t: Task, user: Option<Actor>) {
    user.Some? && (t.createdBy == user.value.id || t.assignedTo == Some(user.value.id) || user.value.role == Admin)
  }

  /** `isCreator || isAdmin`. */
  predicate MayDelete(t: Task, user: Option<Actor>) {
    user.Some? && (t.createdBy == user.value.id || user.value.role == Admin)
  }

  /** The page's gates are the card's flags. */
  lemma GatesAreCardFlags(t: Task, user: Option<Actor>)
    ensures MayChange(t, user) == TaskCard.CardFlags(t, user).canEdit
    ensures MayChange(t, user) == TaskCard.CardFlags(t, user).canToggle
    ensures MayDelete(t, user) == TaskCard.CardFlags(t, user).canDelete
  {
  }

  /** `tasks.find(t => t.id === id)`: the first loaded task with that id. */
  function Find(tasks: seq<Task>, id: TaskId): (r: Option<Task>)
    ensures r.None? <==> forall k :: 0 <= k < |tasks| ==> tasks[k].id != id
    ensures r.Some? ==> exists k :: 0 <= k < |tasks| && tasks[k] == r.value && r.value.id == id
                          && forall j :: 0 <= j < k ==> tasks[j].id != id
  {
    if tasks == [] then None
    else if tasks[0].id == id then Some(tasks[0])
    else
      var r := Find(tasks[1..], id);
      assert r.Some? ==> exists k :: 0 < k < |tasks| && tasks[k] == r.value && r.value.id == id
                          && forall j :: 0 <= j < k ==> tasks[j].id != id by {
        if r.Some? {
          var k :| 0 <= k < |tasks| - 1 && tasks[1..][k] == r.value && r.value.id == id
                   && forall j :: 0 <= j < k ==> tasks[1..][j].id != id;
          assert tasks[k + 1] == r.value;
          forall j | 0 <= j < k + 1 ensures tasks[j].id != id {
            if j > 0 { assert tasks[j] == tasks[1..][j - 1]; }
          }
        }
      }
      r
  }

  /** `handleEditTask`: opens the form on the task for a user who may
      change it; anyone else gets an error and the modal is left as it was. */
  function HandleEditTask(p: Page, user: Option<Actor>, t: Task): (r: Page)
    ensures r.showModal != p.showModal || r.selected != p.selected ==> MayChange(t, user)
    ensures MayChange(t, user) ==> r.showModal && r.selected == Some(t) && r.alert == p.alert
    ensures !MayChange(t, user) ==> r.alert == Some(Alert(Error, EditDenied))
    ensures r.tasks == p.tasks
  {
    if !MayChange(t, user) then p.(alert := Some(Alert(Error, EditDenied)))
    else p.(selected := Some(t), showModal := true)
  }

  /** A handler's effect: the page it leaves and the id sent to the server, if any. */
  datatype Step = Step(page: Page, call: Option<TaskId>)

  /** `handleDeleteTask`: nothing for an id not in the loaded list; an error
      for a user who may not delete; nothing when the confirmation is
      declined; otherwise the delete request, followed by a success alert or
      the server's message (default "Failed to delete task"). */
  function HandleDeleteTask(p: Page, user: Option<Actor>, id: TaskId, confirmed: bool,
                            res: ApiResult): (r: Step)
    ensures r.call.Some? <==> Find(p.tasks, id).Some? && MayDelete(Find(p.tasks, id).value, user) && confirmed
    ensures r.call.Some? ==> r.call.value == id
    ensures Find(p.tasks, id).None? ==> r == Step(p, None)
    ensures Find(p.tasks, id).Some? && !MayDelete(Find(p.tasks, id).value, user) ==>
      r == Step(p.(alert := Some(Alert(Error, DeleteDenied))), None)
    ensures r.call.Some? ==>
      r.page.alert == Some(if res.Ok? then Alert(Success, "Task deleted successfully")
                           else Alert(Error, FailureText(res, "Failed to delete task")))
    ensures r.page.tasks == p.tasks && r.page.showModal == p.showModal && r.page.selected == p.selected
  {
    match Find(p.tasks, id)
    case None => Step(p, None)
    case Some(t) =>
      if !MayDelete(t, user) then Step(p.(alert := Some(Alert(Error, DeleteDenied))), None)
      else if !confirmed then Step(p, None)
      else if res.Ok? then Step(p.(alert := Some(Alert(Success, "Task deleted successfully"))), Some(id))
      else Step(p.(alert := Some(Alert(Error, FailureText(res, "Failed to delete task")))), Some(id))
  }

  /** `handleToggleComplete`: the same lookup, the edit gate, and the toggle
      request, followed by "Task status updated" or the server's message
      (default "Failed to update task"). */
  function HandleToggleComplete(p: Page, user: Option<Actor>, id: TaskId, res: ApiResult): (r: Step)
    ensures r.call.Some? <==> Find(p.tasks, id).Some? && MayChange(Find(p.tasks, id).value, user)
    ensures r.call.Some? ==> r.call.value == id
    ensures Find(p.tasks, id).None? ==> r == Step(p, None)
    ensures Find(p.tasks, id).Some? && !MayChange(Find(p.tasks, id).value, user) ==>
      r == Step(p.(alert := Some(Alert(Error, ToggleDenied))), None)
    ensures r.call.Some? ==>
      r.page.alert == Some(if res.Ok? then Alert(Success, "Task status updated")
                           else Alert(Error, FailureText(res, "Failed to update task")))
    ensures r.page.tasks == p.tasks && r.page.showModal == p.showModal && r.page.selected == p.selected
  {
    match Find(p.tasks, id)
    case None => Step(p, None)
    case Some(t) =>
      if !MayChange(t, user) then Step(p.(alert := Some(Alert(Error, ToggleDenied))), None)
      else if res.Ok? then Step(p.(alert := Some(Alert(Success, "Task status updated"))), Some(id))
      else Step(p.(alert := Some(Alert(Error, FailureText(res, "Failed to update task")))), Some(id))
  }

  /** The request a submit sends. */
  datatype SubmitCall = CreateCall | UpdateCall(id: TaskId)

  /** A submit either completes with a new page state or rethrows the error
      to the form. */
  datatype Submit = Submitted(call: SubmitCall, page: Page) | Rethrown(call: SubmitCall)

  /** `handleSubmitTask`: update the selected task, or create one when none
      is selected. Success closes the modal with a success alert; a 403
      shows "Permission denied: " and the server's message (default
      "Operation failed") and closes the modal; any other failure is
      rethrown. */
  function HandleSubmitTask(p: Page, res: ApiResult): (r: Submit)
    ensures r.call == if p.selected.Some? then UpdateCall(p.selected.value.id) else CreateCall
    ensures r.Rethrown? <==> res.Failed? && res.status != Some(403)
    ensures r.Submitted? ==> !r.page.showModal && r.page.tasks == p.tasks && r.page.selected == p.selected
    ensures res.Ok? ==>
      && r.Submitted?
      && r.page.alert == Some(Alert(Success, if p.selected.Some? then "Task updated successfully"
                                             else "Task created successfully"))
    ensures res.Failed? && res.status == Some(403) ==>
      && r.Submitted?
      && r.page.alert == Some(Alert(Error, "Permission denied: " + FailureText(res, "Operation failed")))
  {
    var call := if p.selected.Some? then UpdateCall(p.selected.value.id) else CreateCall;
    if res.Ok? then
      var message := if p.selected.Some? then "Task updated successfully" else "Task created successfully";
      Submitted(call, p.(alert := Some(Alert(Success, message)), showModal := false))
    else if res.status == Some(403) then
      Submitted(call, p.(alert := Some(Alert(Error, "Permission denied: " + FailureText(res, "Operation failed"))),
                         showModal := false))
    else Rethrown(call)
  }

  // ---------------------------------------------------------------------
  // Client and server agree

  /** The loaded copy of task `id` has the creator and assignee the server
      stores (the permission-relevant fields of a fresh listing). */
  predicate CopyAgrees(p: Page, store: TaskController.Store, id: TaskId) {
    && id in store
    && Find(p.tasks, id).Some?
    && Find(p.tasks, id).value.createdBy == store[id].createdBy
    && Find(p.tasks, id).value.assignedTo == store[id].assignedTo
  }

  /** A delete the page lets through is never refused by the server's gate,
      and one it holds back would have been refused. */
  lemma DeleteGateAgrees(p: Page, a: Actor, id: TaskId, res: ApiResult,
                                            store: TaskController.Store)
    requires CopyAgrees(p, store, id)
    ensures HandleDeleteTask(p, Some(a), id, true, res).call.Some? <==>
      TaskController.DeleteTask(store, id, a).reply.status == 200
  {
  }

  /** Likewise for a toggle. */
  lemma ToggleGateAgrees(p: Page, a: Actor, id: TaskId, res: ApiResult,
                                            store: TaskController.Store, now: Date)
    requires CopyAgrees(p, store, id)
    ensures HandleToggleComplete(p, Some(a), id, res).call.Some? <==>
      TaskController.ToggleTaskCompletion(store, id, a, now).reply.status == 200
  {
  }

  /** From a closed modal, the page opens the edit form exactly when the
      update would pass the server's permission gate: the server does not
      answer it with 403. */
  lemma EditGateAgrees(p: Page, a: Actor, t: Task, store: TaskController.Store,
                                          users: set<UserId>, ch: TaskController.Changes, now: Date)
    requires !p.showModal
    requires t.id in store && t.createdBy == store[t.id].createdBy && t.assignedTo == store[t.id].assignedTo
    ensures HandleEditTask(p, Some(a), t).selected == Some(t) && HandleEditTask(p, Some(a), t).showModal
      <==> TaskController.UpdateTaskWithHook(store, users, t.id, a, ch, now).reply != TaskController.UpdateForbidden
  {
  }
}

=== FILE: user_model.dfy ===
/** The `User` model: field validators, defaults, the password-hashing
    hooks (with the hash function as a parameter), and `toSafeObject`. */
module UserModel {
  import opened Js
  import opened Strings
  import opened TaskModel

  /** The ENUM `('admin', 'user')`; `Member` is the `'user'` role. */
  datatype Role = Admin | Member

  function RoleName(r: Role): string {
    match r
    case Admin => "admin"
    case Member => "user"
  }

  /** The identity of a signed-in user as the server (`req.user`) and the
      client (`useAuth().user`) see it. */
  datatype Actor = Actor(id: UserId, role: Role)

  datatype User = User(
    id: UserId,
    name: string,
    email: string,
    password: string,
    role: Role,
    isActive: bool,
    createdAt: Date,
    updatedAt: Date)

  const NameRequired := "Name is required"
  const NameLength := "Name must be between 2 and 100 characters"
  const EmailRequired := "Email is required"
  const EmailInvalid := "Please provide a valid email"
  const PasswordRequired := "Password is required"
  const PasswordLength := "Password must be at least 6 characters"

  /** `name`: `notEmpty` and `len: [2, 100]`. */
  function NameErrors(name: string): (errs: seq<string>)
    ensures errs == [] <==> !AllSpace(name) && 2 <= |name| <= 100
    ensures forall e :: e in errs ==> e == NameRequired || e == NameLength
  {
    (if AllSpace(name) then [NameRequired] else [])
    + (if 2 <= |name| <= 100 then [] else [NameLength])
  }

  /** `email`: `notEmpty` and `isEmail`; the e-mail grammar is the
      parameter `isEmail`. */
  function EmailErrors(email: string, isEmail: string -> bool): (errs: seq<string>)
    ensures errs == [] <==> !AllSpace(email) && isEmail(email)
    ensures forall e :: e in errs ==> e == EmailRequired || e == EmailInvalid
  {
    (if AllSpace(email) then [EmailRequired] else [])
    + (if isEmail(email) then [] else [EmailInvalid])
  }

  /** `password`: `notEmpty` and `len: [6, 100]`; both bounds report the
      "at least 6" message. */
  function PasswordErrors(password: string): (errs: seq<string>)
    ensures errs == [] <==> !AllSpace(password) && 6 <= |password| <= 100
    ensures !(6 <= |password| <= 100) ==> PasswordLength in errs
    ensures forall e :: e in errs ==> e == PasswordRequired || e == PasswordLength
  {
    (if AllSpace(password) then [PasswordRequired] else [])
    + (if 6 <= |password| <= 100 then [] else [PasswordLength])
  }

  /** `User.create` after validation: the role defaults to `user`, the
      account to active, both timestamps (`timestamps: true`) to the time of
      creation, and the `beforeCreate` hook replaces a non-empty password by
      its hash. */
  function Create(id: UserId, name: string, email: string, password: string,
                  role: Option<Role>, isActive: Option<bool>,
                  hash: string -> string, now: Date): (u: User)
    ensures u.id == id && u.name == name && u.email == email
    ensures u.createdAt == now && u.updatedAt == now
    ensures role == None ==> u.role == Member
    ensures role.Some? ==> u.role == role.value
    ensures isActive == None ==> u.isActive
    ensures isActive.Some? ==> u.isActive == isActive.value
    ensures password != "" ==> u.password == hash(password)
    ensures password == "" ==> u.password == ""
  {
    User(id, name, email,
         if password != "" then hash(password) else password,
         role.GetOr(Member), isActive.GetOr(true), now, now)
  }

  /** The `beforeUpdate` hook: the password is hashed again only when the
      update changed it, so a stored hash is never hashed twice. */
  function BeforeUpdate(prev: User, next: User, hash: string -> string): (u: User)
    ensures u.(password := next.password) == next
    ensures next.password == prev.password ==> u.password == prev.password
    ensures next.password != prev.password ==> u.password == hash(next.password)
  {
    if next.password != prev.password then next.(password := hash(next.password)) else next
  }

  /** An update that leaves the password alone keeps the stored hash, even
      when other fields change. */
  lemma ProfileEditKeepsHash(prev: User, name: string, email: string,
                                                hash: string -> string)
    ensures BeforeUpdate(prev, prev.(name := name, email := email), hash).password == prev.password
  {
  }

  /** `toJSON()` of a user: one key per column, the two timestamp columns
      included; a timestamp is sent as the string `stamp` renders it as
      (JavaScript's `Date.prototype.toJSON`). */
  function ToJson(u: User, stamp: Date -> string): (m: map<string, Json>)
    ensures m.Keys == {"id", "name", "email", "password", "role", "isActive", "createdAt", "updatedAt"}
    ensures m["password"] == JStr(u.password)
  {
    map["id" := JStr(u.id), "name" := JStr(u.name), "email" := JStr(u.email),
        "password" := JStr(u.password), "role" := JStr(RoleName(u.role)),
        "isActive" := JBool(u.isActive),
        "createdAt" := JStr(stamp(u.createdAt)), "updatedAt" := JStr(stamp(u.updatedAt))]
  }

  /** `toSafeObject`: the JSON form without the `password` key; every other
      key keeps its value. */
  function ToSafeObject(json: map<string, Json>): (safe: map<string, Json>)
    ensures safe.Keys == json.Keys - {"password"}
    ensures forall k :: k in safe ==> safe[k] == json[k]
  {
    map k | k in json && k != "password" :: json[k]
  }

  /** The safe object of a user exposes exactly the columns other than the
      password, the timestamps included. */
  lemma SafeUserFields(u: User, stamp: Date -> string)
    ensures ToSafeObject(ToJson(u, stamp)).Keys ==
      {"id", "name", "email", "role", "isActive", "createdAt", "updatedAt"}
    ensures ToSafeObject(ToJson(u, stamp))["role"] == JStr(RoleName(u.role))
    ensures ToSafeObject(ToJson(u, stamp))["createdAt"] == JStr(stamp(u.createdAt))
  {
  }
}
